=== FILE: README.md ===
# ee_utils core in Dafny

A Dafny model of the core of `ee_utils`, a small C++ utility library from the
else-engine project, together with proofs about it:

- **`ThreadPool`** (`ThreadPool.hpp`, `ThreadPool.cpp`). A fixed set of worker
  threads serves a FIFO queue of tasks. `arun` enqueues a task unless `join_`
  is set. `run` enqueues and waits on the future. `assist` lets the calling
  thread drain the queue. `wait_completion` blocks until the queue is empty
  and `busy_` is zero. `join` stops the workers.
- **`split_for`** (`ThreadPool.hpp`). This splits the index range
  `[0, count)` into at most `split` consecutive batches of
  `max(ceil(count / split), at_least)` indices each, except that the last
  batch may be shorter. It submits one task per batch, assists, and waits. Each task calls `fn`
  with the offsets `k * stride` of its indices.
- **Scoped-enum bit-field helpers** (`scoped_enum_utils.hpp`). These are
  `as_value`/`as`, the shift, bitwise and compound-assignment operators,
  `all`/`any`/`none`, and the `Range` with its iterator.
- **Componentwise application** (`componentwise.hpp`). This covers the
  type-level helpers `but`, `is_tuple`, `find_value_type`,
  `find_first_tuple` and `cwise_return`, and the value-level `cwise` (one to
  three arguments, with scalars broadcast) and `split`.

Modules and files:

| file | module | contents |
|---|---|---|
| `wrappers.dfy` | `Wrappers` | `Option` |
| `arith.dfy` | `Arith` | small product and quotient lemmas shared by the proofs |
| `split_for.dfy` | `SplitFor` | the batch size, the batch list, the offsets each batch visits, coverage |
| `thread_pool.dfy` | `ThreadPool` | the pool as a transition system, its invariant, `spawn`, `assist`, `join` |
| `pool_clients.dfy` | `PoolClients` | `run` and its future, `split_for` driven through the pool |
| `scoped_enum.dfy` | `ScopedEnum` | the enum operators, `Range` and its iteration |
| `componentwise.dfy` | `Componentwise` | types, `cwise`, `split` |

Representation choices:

- **The pool is a sequential transition system.** Each step is one atomic
  action of one thread: a submitter's `arun`, one turn of a worker's loop
  (loop head, leaving `wakeup_.wait`, finishing a task), one step of an
  `assist` call (entering it, which fixes its thread id; popping a task;
  finishing it; or returning),
  or one of the two halves of `join`. `Next` gives the step
  relation and `Exec` runs a sequence of steps. `Valid` is the invariant
  every reachable state keeps. Tasks are numbered by submission, and a task
  counts as resolved once some thread has finished running it.
- **`join` does not drain the queue.** A worker tests `while (!join_)`
  before waiting (`ThreadPool.cpp:25`), so once `join_` is set it returns
  even with tasks still queued. Only a worker already past the `while (!join_)` test
  takes one more task (`ThreadPool.cpp:35-42`).
  `ThreadPool.Join` shows that the queue loses at most one task per waiting
  worker, and `ExitAtLoopHeadWithQueuedTasks` shows that a worker can leave
  with tasks still queued.
- **The enum's underlying type is `uint32_t`.** Its value is an integer in
  `[0, 2^32)`, and its bits are the 32 binary digits of that integer, least
  significant first (`Bits`). `|`, `&`, `^` and `~` are defined digit by
  digit, as the C++ standard defines them for unsigned operands. Shifts are
  defined arithmetically (`x * 2^n mod 2^32` and `x / 2^n`), and their
  contracts state the resulting digit sequences.
- **The doc comments on `operator|`/`operator|=` call them "AND", and those
  on `&`/`&=` call them "OR"** (`scoped_enum_utils.hpp:85-119`). The model
  follows the code: `Or` is `|` and `And` is `&`.
- **`cwise` and `split` work on sequences.** A tuple is the sequence of its
  components. A type is either a named non-tuple type or
  `std::array<T, N>`, the only type `but` is specialised for. The result
  type `fn` gives for its argument types is a parameter (`resultOf`).

## Model

| member | source | states |
|---|---|---|
| SplitFor.BatchSize | ThreadPool.hpp:88 | the batch size is at least `at_least`, and at least 1 when there is anything to split |
| SplitFor.BatchSizeIsLeastCover | ThreadPool.hpp:88 | `split` batches of that size cover `count`; one index fewer per batch would not, unless `at_least` forced the size |
| SplitFor.CeilDiv | ThreadPool.hpp:88 | `count / split` rounded up: the least q with `q * split >= count` |
| SplitFor.CeilDivUnique | ThreadPool.hpp:88 | any q with `(q-1)*d < n <= q*d` is the rounded-up quotient |
| SplitFor.BatchesFromShape | ThreadPool.hpp:90-91 | batch b starts at `b * batch` below `count`, every batch has the loop's `sub_count`, and the batches reach `count` |
| SplitFor.MakeBatch | ThreadPool.hpp:91-96 | the task submitted for the batch at `i`: its inner loop starts at `j = i * stride` and stops below `sub_count = stride * min(i + batch, count)` |
| SplitFor.BatchesFrom | ThreadPool.hpp:90-98 | the tasks `for (i = from; i < count; i += batch)` submits, in submission order |
| SplitFor.BatchCountBound | ThreadPool.hpp:88-91 | the loop submits at most `split` tasks, exactly `ceil(count / batch)` of them |
| SplitFor.BatchCountIndependentOfStride | ThreadPool.hpp:90-91 | the number of tasks does not depend on `stride` |
| SplitFor.SplitFor | ThreadPool.hpp:88-98 | the submission loop: nothing for `count == 0`, at most `split` tasks, each of which terminates, in batch order |
| SplitFor.Steps | ThreadPool.hpp:94-96 | the inner loop visits `from, from + stride, …`, all below the bound, and stops at the first one that reaches it |
| SplitFor.Visits | ThreadPool.hpp:94-96 | the offsets `j` that one batch task passes to `fn`, in call order |
| SplitFor.MakeBatchTerminates | ThreadPool.hpp:91-96 | every task's inner loop terminates, even with a zero stride |
| SplitFor.BatchVisits | ThreadPool.hpp:91-96 | a batch of indices `[lo, hi)` calls `fn` with `lo*stride, …, (hi-1)*stride` |
| SplitFor.TraceFrom | ThreadPool.hpp:90-96 | the batches from index `from` on visit `k * stride` for `from <= k < count`, once each, in order |
| SplitFor.Coverage | ThreadPool.hpp:88-96 | run in order, the tasks call `fn` with `0, stride, …, (count-1)*stride`, each exactly once |
| SplitFor.ExactlyOneBatch | ThreadPool.hpp:88-96 | offset `k * stride` belongs to exactly one task, the one numbered `k / batch` |
| SplitFor.BatchMembership | ThreadPool.hpp:91-96 | the batch starting at `b * batch` contains offset `k * stride` iff `b == k / batch` |
| SplitFor.OnlyLastBatchShorter | ThreadPool.hpp:91 | every batch but the last has exactly `batch` indices, and the last one ends at `count` |
| SplitFor.VisitsIncreasing | ThreadPool.hpp:94-96 | within a task the offsets strictly increase |
| SplitFor.ZeroStrideVisitsNothing | ThreadPool.hpp:90-96 | with a zero stride `fn` is never called |
| ThreadPool.Arun | ThreadPool.hpp:65-72 | a task is numbered by submission and appended to the queue iff `join_` is clear; otherwise nothing changes but the counter; no other field changes |
| ThreadPool.LoopHead | ThreadPool.cpp:25 | at the loop head a worker exits iff `join_` is set, and waits otherwise; only that worker changes |
| ThreadPool.Wake | ThreadPool.cpp:31-42 | a woken worker exits when joining with an empty queue; otherwise it raises `busy_` and takes the front task; `join_`, the history and the `assist` calls are untouched |
| ThreadPool.Finish | ThreadPool.cpp:45-52 | finishing a task lowers `busy_`, records the execution under the worker's id, and returns the worker to its loop head; nothing else changes |
| ThreadPool.AssistEnter | ThreadPool.cpp:60 | entering `assist` fixes the call's thread id as the worker count at that moment, changing nothing else |
| ThreadPool.AssistPop | ThreadPool.cpp:65-76 | an `assist` call at the head of its loop, on a non-empty queue, raises `busy_` and pops the front task, which it then runs outside the lock; nothing else changes |
| ThreadPool.AssistFinish | ThreadPool.cpp:78-83 | an `assist` call returns from its task, records it as run under the id it fixed on entry, lowers `busy_`, and goes back to the head of its loop |
| ThreadPool.AssistPopThenFinish | ThreadPool.cpp:62-84 | one round of an `assist` call completes the queue's front task under the call's id and leaves `busy_` and the call as they were |
| ThreadPool.AssistLeave | ThreadPool.cpp:68-70 | an `assist` call at the head of its loop returns only on an empty queue, and only that call is dropped |
| ThreadPool.JoinBegin | ThreadPool.cpp:94-96 | `join` first sets `join_` and changes nothing else |
| ThreadPool.SpawnOne | ThreadPool.cpp:21-24 | one round of `spawn` appends one worker, at its loop head, whose id is the previous worker count |
| ThreadPool.WorkerCount | ThreadPool.cpp:107-109 | `worker_count()` is the number of workers |
| ThreadPool.CanWake | ThreadPool.cpp:31-33 | a waiting worker can leave `wakeup_.wait` exactly when `join_` is set or the queue is not empty |
| ThreadPool.AtRest | ThreadPool.cpp:88-91 | `wait_completion` can return exactly when the queue is empty and `busy_` is 0 |
| ThreadPool.Resolved | ThreadPool.hpp:63-69 | a task's future is resolved once some thread has finished running the task |
| ThreadPool.Next | ThreadPool.cpp:20-109 | one atomic action of one thread, or none when that thread is blocked: `arun`, `spawn`, a worker's loop head, its leaving `wakeup_.wait`, its finishing a task, the four steps of an `assist` call, and the two halves of `join` |
| ThreadPool.Exec | ThreadPool.cpp:20-109 | an interleaving of actions applied in order, failing if one of them is blocked |
| ThreadPool.JoinEnd | ThreadPool.cpp:102-104 | after every worker returned: no workers, `join_` clear, and nothing else changes |
| ThreadPool.EmptyIsValid | ThreadPool.hpp:42-46 | the fresh pool satisfies the invariant |
| ThreadPool.NextKeepsValid | ThreadPool.cpp:20-109 | every action keeps the invariant: ids are positions, the queue is what was enqueued and not taken, `busy_` counts the tasks that workers and `assist` calls are running, each taken task is finished or running exactly once |
| ThreadPool.ExecKeepsValid | ThreadPool.cpp:20-109 | every state reachable from a valid state is valid |
| ThreadPool.TakeThenFinishRestoresBusy | ThreadPool.cpp:39-50 | a worker that takes a task and finishes it leaves `busy_` unchanged, and completes the queue's front task |
| ThreadPool.FrontTaskTakenKeepsValid | ThreadPool.cpp:39-42 | when a worker or an `assist` call pops the front task and raises `busy_`, with that task now counted as running, the invariant still holds |
| ThreadPool.TaskFinishedKeepsValid | ThreadPool.cpp:45-52 | when a thread finishes its task and lowers `busy_`, with the finished run recorded, the invariant still holds |
| ThreadPool.RunningWorkerIsBusy | ThreadPool.cpp:39-50 | in a valid state a worker that is running a task is counted in `busy_`, so `busy_` is positive |
| ThreadPool.ExitAtLoopHeadWithQueuedTasks | ThreadPool.cpp:25 | a worker at its loop head leaves when joining even though tasks are queued |
| ThreadPool.WakeExitsIff | ThreadPool.cpp:31-37 | a waiting worker exits exactly when `join_` is set and the queue is empty |
| ThreadPool.AssistIdIsFresh | ThreadPool.cpp:60 | on entry, the id an `assist` call fixes is that of no existing worker |
| ThreadPool.SpawnDuringAssistSharesId | ThreadPool.cpp:20-24 | the id stays fixed while `assist` runs, so a worker spawned meanwhile gets the same id as the tasks that call runs |
| ThreadPool.TwoAssistsShareId | ThreadPool.cpp:59-78 | two `assist` calls in progress at once fix the same id `workers_.size()` and can both run a task under it at the same time |
| ThreadPool.AtRestAllAcceptedCompleted | ThreadPool.cpp:88-91 | when `wait_completion` can return, no worker and no `assist` call runs a task, and every enqueued task has finished exactly once |
| ThreadPool.FifoOrder | ThreadPool.cpp:41-42 | tasks leave the queue in submission order, none twice |
| ThreadPool.NeverEnqueuedNotResolved | ThreadPool.hpp:68-71 | a task that was never enqueued has not run |
| ThreadPool.NextKeepsNotEnqueued | ThreadPool.hpp:68-71 | a dropped task is never enqueued later |
| ThreadPool.DroppedNeverResolves | ThreadPool.hpp:68-71 | a dropped task never runs, whatever the threads do afterwards |
| ThreadPool.ArunWhileJoiningIsDropped | ThreadPool.hpp:65-72 | a task submitted while `join_` is set never runs |
| ThreadPool.Spawn | ThreadPool.cpp:20-24 | `spawn(n)` adds n workers with ids `worker_count() …`, keeps the old ones, leaves the ids distinct, and changes nothing else |
| ThreadPool.SpawnOneExtends | ThreadPool.cpp:21-24 | one more round of the `spawn` loop keeps the invariant and the workers from before the call, and every added worker has its position as id |
| ThreadPool.Create | ThreadPool.cpp:12-14 | a new pool has `nt` workers at their loop heads, an empty queue, `join_` clear, `busy_` 0 and no history |
| ThreadPool.AssistRounds | ThreadPool.cpp:62-85 | with no other thread acting, the loop of an `assist` call runs every queued task once, front first, under the call's id, until the queue is empty; nothing else changes |
| ThreadPool.Assist | ThreadPool.cpp:59-86 | with no other thread acting, `assist` runs every queued task once, front first, under the worker count as id, and returns with an empty queue, `busy_` as before and nothing else changed |
| ThreadPool.RunUntilExit | ThreadPool.cpp:25-53 | while joining, a worker reaches its exit after finishing its task and taking at most one more, only if it was waiting |
| ThreadPool.JoinOne | ThreadPool.cpp:98-100 | one `worker.join()`: that worker has exited, the later ones are untouched, and the queue lost at most one task per waiting worker so far |
| ThreadPool.Join | ThreadPool.cpp:93-105 | after `join` there are no workers and `join_` is clear; `busy_` counts only tasks that `assist` calls in progress are running; the queue lost at most one task per waiting worker, and the rest stays queued |
| PoolClients.FutureOf | ThreadPool.hpp:63-81 | the future of a task is ready exactly when it has run, pending exactly when it was enqueued and has not run, and broken (`get` throws) exactly when it was dropped |
| PoolClients.PendingIffQueuedOrRunning | ThreadPool.hpp:63-72 | in a reachable state a task's future is pending exactly while the task is in `queue_` or being run by a worker or an `assist` call, so no accepted task is lost |
| PoolClients.RunWaitsForItsTask | ThreadPool.hpp:77-82 | `run` on a pool that is not joining: the task is last in the queue and its future is pending |
| PoolClients.RunWhileJoiningThrows | ThreadPool.hpp:77-82 | `run` on a joining pool: the future is broken in every later state, so `get` throws |
| PoolClients.ExecKeepsAccepted | ThreadPool.hpp:65-72 | a task outside the enqueued list stays outside it |
| PoolClients.OffsetsInOrder | ThreadPool.hpp:93-100 | running the batch tasks front first visits the batches' offsets in batch order |
| PoolClients.SubmitAll | ThreadPool.hpp:90-98 | the submission loop numbers the tasks consecutively and queues them all, or none while joining; nothing else changes |
| PoolClients.SubmitThenAssist | ThreadPool.hpp:90-100 | the `arun` loop then `assist`, with no other thread acting: the tasks are numbered consecutively, the queue ends empty, `busy_` and the workers are unchanged, and the caller runs the earlier queue and then the new tasks, unless `join_` dropped them; the submission counter rises by n, and `join_` and the `assist` calls in progress are unchanged |
| PoolClients.SplitForOnPool | ThreadPool.hpp:84-102 | `split_for` on a pool no other thread touches: at most `split` tasks and an empty queue at the end; when `join_` is clear the caller runs them all after the earlier queue, and `fn` receives `0, stride, …, (count-1)*stride` in order; when it is set no batch task runs; the submission counter rises by the number of batches, and `join_`, the workers and the `assist` calls in progress are unchanged |
| PoolClients.BatchTasksVisitAll | ThreadPool.hpp:90-100 | the batch tasks run in submission order visit every multiple of `stride` below `count * stride` once, in order |
| PoolClients.RanBatchesCover | ThreadPool.hpp:90-100 | running the batch tasks in submission order runs only those tasks, every batch ends, and `fn` receives every multiple of `stride` below `count * stride` once, in order |
| PoolClients.BatchesRanAfterQueue | ThreadPool.hpp:90-100 | when `assist` ran the earlier queue and then the batch tasks, the executions past the earlier ones are exactly the batch tasks', and with a positive stride they give `fn` every multiple of `stride` below `count * stride` once, in order |
| PoolClients.DroppedBatchesNotResolved | ThreadPool.hpp:68-71 | when `join_` was set, the batch tasks were dropped, and none of them has run afterwards |
| PoolClients.FreshTasksNotResolved | ThreadPool.hpp:68-71 | tasks numbered after every enqueued task have not run |
| ScopedEnum.As | scoped_enum_utils.hpp:44-47 | `as` gives the enum whose value is the argument |
| ScopedEnum.AsValue | scoped_enum_utils.hpp:36-39 | `as_value` gives the underlying `uint32_t` value of an element |
| ScopedEnum.AsValueRoundTrip | scoped_enum_utils.hpp:36-47 | `as(as_value(e)) == e` |
| ScopedEnum.BitsRoundTrip | scoped_enum_utils.hpp:36-39 | an enum is determined by its 32 bits |
| ScopedEnum.OfBitsRoundTrip | scoped_enum_utils.hpp:36-39 | every 32-bit pattern is the bits of some enum |
| ScopedEnum.BitsInjective | scoped_enum_utils.hpp:36-39 | two enums are equal iff their bits are |
| ScopedEnum.Or | scoped_enum_utils.hpp:88-91 | a bit of `lhs` bitwise-or `rhs` is set iff it is set in either operand |
| ScopedEnum.And | scoped_enum_utils.hpp:106-109 | a bit of `lhs & rhs` is set iff it is set in both |
| ScopedEnum.Xor | scoped_enum_utils.hpp:124-127 | a bit of `lhs ^ rhs` is set iff the operands differ there |
| ScopedEnum.Not | scoped_enum_utils.hpp:142-145 | a bit of `~x` is set iff it is clear in `x` |
| ScopedEnum.OrPlusAnd | scoped_enum_utils.hpp:88-109 | as numbers, (x bitwise-or y) + (x & y) equals x + y |
| ScopedEnum.XorIsSumWithoutCarries | scoped_enum_utils.hpp:106-127 | `x ^ y == x + y - 2 * (x & y)` as numbers |
| ScopedEnum.NotIsComplement | scoped_enum_utils.hpp:142-145 | `~x == 2^32 - 1 - x` as numbers |
| ScopedEnum.Shl | scoped_enum_utils.hpp:52-55 | `lhs << n` moves every bit n places up, drops the top n bits, and fills with zeros |
| ScopedEnum.Shr | scoped_enum_utils.hpp:70-73 | `lhs >> n` moves every bit n places down and fills the top with zeros |
| ScopedEnum.ShiftRoundTrip | scoped_enum_utils.hpp:52-73 | shifting left then right by n gives back any value whose top n bits are clear |
| ScopedEnum.Assign | scoped_enum_utils.hpp:60-137 | each compound assignment stores its operator's result in `lhs` and returns the stored value |
| ScopedEnum.AllMeansSubset | scoped_enum_utils.hpp:150-153 | `all(x, y)` iff every bit set in y is set in x |
| ScopedEnum.All | scoped_enum_utils.hpp:150-153 | `all(x, y)` is `(x & y) == y` |
| ScopedEnum.AllEmptyAndSelf | scoped_enum_utils.hpp:150-153 | every value has all bits of zero and all of its own bits |
| ScopedEnum.AnyMeansCommonBit | scoped_enum_utils.hpp:158-161 | `any(x, y)` iff some bit is set in both |
| ScopedEnum.Any | scoped_enum_utils.hpp:158-161 | `any(x, y)` is `(x & y) != 0` |
| ScopedEnum.NoneMeansDisjoint | scoped_enum_utils.hpp:166-169 | `none(x, y)` iff no bit is set in both |
| ScopedEnum.None | scoped_enum_utils.hpp:166-169 | `none(x, y)` is the negation of `any(x, y)` |
| ScopedEnum.OrIdempotent | scoped_enum_utils.hpp:96-101 | or-assigning y a second time changes nothing, and afterwards `all(x, y)` holds |
| ScopedEnum.XorInvolution | scoped_enum_utils.hpp:124-137 | applying `^= y` twice restores the value |
| ScopedEnum.AndKeepsSubset | scoped_enum_utils.hpp:106-119 | the bits of `x & y` are among those of x and of y |
| ScopedEnum.NotInvolution | scoped_enum_utils.hpp:142-145 | `~~x == x` |
| ScopedEnum.ValidRange | scoped_enum_utils.hpp:177 | the range's static assertion that `first` does not exceed `last` |
| ScopedEnum.Count | scoped_enum_utils.hpp:177-183 | `count` is `last - first + 1`, except that it wraps to 0 exactly for the full range `[0, 2^32 - 1]` |
| ScopedEnum.IndexFrom | scoped_enum_utils.hpp:185-187 | for an element at or above `first` (inside the range or past `last`) the index is `e - first`, at most `last - first` inside the range; below `first` the subtraction wraps modulo 2^32 |
| ScopedEnum.EnumFrom | scoped_enum_utils.hpp:189-191 | whenever `first + i` fits in 32 bits the element is `first + i`, and it is in the range when `i` is at most `last - first`; a sum of 2^32 or more wraps modulo 2^32 |
| ScopedEnum.Has | scoped_enum_utils.hpp:193-197 | `has(e)` holds exactly when the value of e lies between those of `first` and `last` |
| ScopedEnum.Incr | scoped_enum_utils.hpp:208-212 | `++it` adds one to the iterator's value, wrapping from 2^32 - 1 to 0 |
| ScopedEnum.Deref | scoped_enum_utils.hpp:204-206 | `*it` is the element whose value is the iterator's |
| ScopedEnum.Differs | scoped_enum_utils.hpp:214-216 | `it != other` compares the underlying values |
| ScopedEnum.Begin | scoped_enum_utils.hpp:223-227 | `begin` dereferences to `first` |
| ScopedEnum.End | scoped_enum_utils.hpp:229-233 | `end` holds `last + 1`, or 0 when `last` is the largest value |
| ScopedEnum.IndexRoundTrip | scoped_enum_utils.hpp:185-191 | `index_from` and `enum_from` are inverse to each other |
| ScopedEnum.HasMeansIndexBelowCount | scoped_enum_utils.hpp:185-197 | `has(e)` iff the index of e is at most `last - first`, i.e. below `count` when that does not wrap |
| ScopedEnum.Iterate | scoped_enum_utils.hpp:199-233 | the range-for loop from `begin` to `end` visits `count` elements in increasing order, the k-th having value `first + k`, and every element with `has` when `count` does not wrap |
| ScopedEnum.FullRangeVisitsNothing | scoped_enum_utils.hpp:183-233 | over the full range `count` is 0 and `begin` equals `end`, so the loop visits nothing |
| ScopedEnum.IterateAll | scoped_enum_utils.hpp:199-233 | the corrected iteration visits `last - first + 1` elements, the k-th having value `first + k`, which are exactly the elements with `has(e)`, including for the full range |
| Componentwise.IsTuple | componentwise.hpp:46-59 | `is_tuple<T>` holds exactly for the `std::array` types of the model |
| Componentwise.But | componentwise.hpp:31-34 | `but` exists exactly for tuple types, and gives the tuple of the same size with the new value type |
| Componentwise.FindValueType | componentwise.hpp:68-81 | a tuple's value type is its component type; any other type is its own |
| Componentwise.FindFirstTuple | componentwise.hpp:89-105 | `find_first_tuple<Ts...>` skips the leading non-tuple types and gives the first tuple, or `void` (`None`); what it gives is always a tuple |
| Componentwise.FindFirstTupleIsFirst | componentwise.hpp:89-105 | `find_first_tuple` is `void` iff no type is a tuple, and otherwise the tuple at the least position |
| Componentwise.TupleSize | componentwise.hpp:190-195 | `tuple_size_v` of the first tuple argument type, the length of the index sequence `cwise` expands over |
| Componentwise.CwiseReturn | componentwise.hpp:112-114 | `cwise_return` exists exactly when some argument type is a tuple, and is then a tuple of the first tuple's size |
| Componentwise.Expand1 | componentwise.hpp:118-121 | the expansion `{fn(t1[Is])...}` has one entry per index, `fn` of the component at that index |
| Componentwise.Expand2 | componentwise.hpp:125-140 | the two-argument expansion has one entry per index, `fn` of the tuples' components at that index, a scalar passed unchanged |
| Componentwise.Expand3 | componentwise.hpp:144-183 | the same for three arguments |
| Componentwise.FirstTupleOfTwo | componentwise.hpp:190-195 | with some tuple argument, `find_first_tuple` of the two argument types exists and has the first tuple argument's size |
| Componentwise.FirstTupleOfThree | componentwise.hpp:190-195 | the same for three argument types |
| Componentwise.Cwise1 | componentwise.hpp:118-121 | `cwise(fn, t)`, expanded over the index sequence of t's size, has t's size and holds `fn(t[i])` at i |
| Componentwise.Cwise2 | componentwise.hpp:125-140 | a two-argument `cwise`, expanded over the index sequence of the first tuple's size, has that size and holds `fn` of the i-th components at i, a scalar giving itself for every i |
| Componentwise.Cwise3 | componentwise.hpp:144-183 | the same for the seven three-argument overloads |
| Componentwise.Cwise1ReturnType | componentwise.hpp:112-121 | the declared result type of `cwise(fn, t)` is the array, of the result's size, of the type `fn` returns on t's value type, nested arrays included |
| Componentwise.Cwise2ReturnType | componentwise.hpp:112-140 | the declared result type of a two-argument `cwise` is the array, of the first tuple's size, of `fn`'s result type on the value types, nested arrays included |
| Componentwise.Cwise3ReturnType | componentwise.hpp:112-183 | the same for three arguments |
| Componentwise.ScalarIsBroadcast | componentwise.hpp:131-140 | a scalar argument acts as a fixed argument of `fn` |
| Componentwise.ThirdScalarIsBroadcast | componentwise.hpp:150-153 | a scalar third argument acts as a fixed argument of `fn` |
| Componentwise.SwapTuples | componentwise.hpp:125-128 | swapping two equal-size tuple arguments only swaps what `fn` receives |
| Componentwise.Cwise1Fuses | componentwise.hpp:118-121 | two one-argument `cwise` calls compose into one |
| Componentwise.IndexSequence | componentwise.hpp:211-213 | `make_index_sequence<n>` is `0, 1, …, n - 1` |
| Componentwise.Spread | componentwise.hpp:203-206 | the pack expansion `t[Is]...` gives one argument per index, `t[Is[k]]` as argument k |
| Componentwise.Split | componentwise.hpp:210-214 | `split(fn, t)` calls `fn` with all components of t, each once, in index order |

## Left out

- Threads, mutexes, condition variables and atomics are left out. The pool is a set of atomic actions, and any interleaving of them is an `Exec` of events. Blocking is a precondition on an action: a worker cannot leave `wakeup_.wait` until `CanWake`, and `EndJoin` needs every worker to have exited. Fairness and liveness are not modelled.
- `std::packaged_task`, `std::future`, `std::bind` and the propagation of a task's result or exception are left out. A task is an opaque number. Its future is ready once the task has run, pending while it is queued or running (`PoolClients.PendingIffQueuedOrRunning`), and broken when it was dropped (`PoolClients.FutureOf`).
- `wait_completion` reads `queue_` under `mutex_task_completed_`, which is not the lock that protects the queue. That data race is not modelled. `AtRest` is the condition under which the method returns.
- `ThreadPool.Finish`: requires `busy_ > 0`. The source uses a 32-bit unsigned `busy_` whose decrement would wrap at 0. `Valid` makes the case unreachable, so the wrap-around is not modelled.
- `ThreadPool.Assist`: models `assist` with no other thread acting while it runs. Interleavings with workers, spawns and other `assist` calls are covered by the `AssistBegin`, `AssistTake`, `AssistDone` and `AssistEnd` events in `Next`.
- Thread ids are not always distinct, and no contract claims they are. An `assist` call keeps the id `workers_.size()` it fixed on entry, so a worker spawned while it runs gets the same id (`ThreadPool.SpawnDuringAssistSharesId`). Two `assist` calls in progress at once, such as two threads each inside `split_for` on one pool, fix the same id even with no `spawn`, and can run tasks under it at the same time (`ThreadPool.TwoAssistsShareId`). Only the workers' ids are distinct (`Valid`).
- `ThreadPool.Join`: is driven worker by worker in the order of `workers_` with no concurrent submitters. Other interleavings are covered by `Exec` over `BeginJoin`/`EndJoin`. The destructor (`ThreadPool.cpp:16-18`) calls `join` and then destroys `queue_` (`ThreadPool.hpp:46`). Destroying the pool is not modelled. Each queued lambda holds the last `shared_ptr` to its `packaged_task` (`ThreadPool.hpp:57-69`), so the futures of the tasks `join` left queued become broken at that point (`get` throws `future_error` with `broken_promise`). In the model these tasks stay queued and `PoolClients.FutureOf` keeps them `Pending`.
- `PoolClients.SplitForOnPool`: models `split_for` when no other thread acts during it, so the calling thread's `assist` runs every batch. With active workers each batch is still run exactly once, because of `FifoOrder` and `Valid`, but by whichever thread took it. The final `wait_completion` is modelled only by `AtRest` when `busy_` was 0.
- `run` on a pool that has no workers blocks forever unless someone assists. Liveness is not modelled.
- `split_for` with `split == 0` divides by zero in the source. `SplitFor.BatchSize` and its callers require a positive `split`.
- `size_t` overflow of `stride * min(i + batch, count)`, `i * stride` and `i += batch` is not modelled. Indices are unbounded naturals.
- `is_scoped_enum` and the `eif` (`enable_if`) guards are compile-time checks and are left out. So are the SFINAE detection in `is_tuple` (`componentwise.hpp:44-59`), including its `sizeof` layout test, and `templates.hpp`. A model type is a tuple iff it is an `Array`.
- Only the underlying type `uint32_t` is modelled. Narrower types promote to `int` in `<<`, `~`, `-` and `+`, and those cases are not modelled. For a `uint8_t` or `uint16_t` enum, `count` is computed in `int` and is 256 or 65536 for the full range, not 0. Only the other half of the finding below carries over: the iterator's `++` wraps at that type's width, so `end` equals `begin` and the loop still visits nothing.
- `ScopedEnum.Shl`: requires a shift count below 32. A larger count is undefined behaviour in C++.
- The `static_assert(first <= last)` of `Range` becomes the precondition `ValidRange`.
- The `all`/`any`/`none` templates accept any type with `&`, `==` and `T{0}`. They are modelled on the enum only.
- `cwise` is modelled for the fixed arities 1 to 3, which the `static_assert` of `componentwise.hpp:193` allows. The requirement that at least one argument is a tuple (`componentwise.hpp:192`) is a precondition. Indexing a later tuple that is shorter than the first is undefined behaviour, so every tuple argument must have at least the first tuple's size (`Covers`).
- The result type `fn` gives for given argument types (`std::invoke_result_t`) is a parameter of `CwiseReturn`, because the type-level model has no function types. Also left out: `std::decay_t`, and the `split` overload constraint `eif<is_tuple<T>>`, since `split` here takes a sequence.

## Findings

| source | as written | input that shows it | evidently intended | confidence | as-written member | corrected member |
|---|---|---|---|---|---|---|
| scoped_enum_utils.hpp:183-233 | `count` is `last - first + 1` in the underlying type, and `end` is `++Iterator{last}`; both wrap when `last` is the type's maximum and `first` is 0 | a `Range` over a `uint32_t` enum with `first = 0`, `last = 2^32 - 1`: `count == 0`, `begin == end`, and the range-for loop visits no element | iterating a valid range visits every element from `first` to `last` once, including the full range | not executed | ScopedEnum.FullRangeVisitsNothing | ScopedEnum.IterateAll |

=== FILE: arith.dfy ===
/**
 * Facts about products and quotients of naturals, kept in small lemmas so
 * that no other proof has to reason about multiplication on its own.
 */
module Arith {
  lemma MulSucc(a: nat, c: nat)
    ensures (a + 1) * c == a * c + c
  {
  }

  lemma MulMono(a: nat, b: nat, c: nat)
    requires a <= b
    ensures a * c <= b * c
  {
    var d := b - a;
    assert b * c == a * c + d * c;
  }

  lemma MulLeCancel(a: nat, b: nat, c: nat)
    requires c > 0 && a * c <= b * c
    ensures a <= b
  {
    if a > b {
      MulMono(b + 1, a, c);
      MulSucc(b, c);
    }
  }

  lemma MulLtCancel(a: nat, b: nat, c: nat)
    requires a * c < b * c
    ensures a < b
  {
    if a >= b {
      MulMono(b, a, c);
    }
  }

  lemma Double(p: nat, v: nat)
    ensures 2 * (p * v) == (2 * p) * v
  {
  }

  lemma DivBlock(k: nat, d: nat)
    requires d > 0
    ensures (k / d) * d <= k < (k / d) * d + d
  {
    var q, r := k / d, k % d;
    assert k == d * q + r;
    assert d * q == q * d;
  }

  /** Quotient and remainder are determined by `x == q * m + r` with `r < m`. */
  lemma DivModUnique(x: nat, m: nat, q: nat, r: nat)
    requires 0 <= r < m && x == q * m + r
    ensures x / m == q && x % m == r
  {
    var q', r' := x / m, x % m;
    assert x == q' * m + r';
    assert (q + 1) * m == q * m + m;
    assert (q' + 1) * m == q' * m + m;
    MulLtCancel(q, q' + 1, m);
    MulLtCancel(q', q + 1, m);
  }
}

=== FILE: componentwise.dfy ===
/**
 * Componentwise application (`componentwise.hpp`): calling a function on the
 * components of fixed-size tuples, with scalar arguments broadcast to every
 * component, and spreading a tuple's components as arguments.
 *
 * Two layers: the type-level helpers (`but`, `find_value_type`,
 * `find_first_tuple`, `cwise_return`) on a small universe of types, and the
 * value-level `cwise` and `split` on arguments that are either a scalar or a
 * tuple, a tuple being the sequence of its components.
 */
module Componentwise {
  import opened Wrappers

  // ---------------------------------------------------------------
  // Types
  // ---------------------------------------------------------------

  /** A type: a non-tuple type named `name`, or `std::array<valueType, size>`,
      the tuple type of the model. */
  datatype Ty = Basic(name: string) | Array(valueType: Ty, size: nat)

  /** `is_tuple<T>` */
  predicate IsTuple(t: Ty)
  {
    t.Array?
  }

  /** `but_t<T, VT>`: the container type of the same size holding `VT`.
      Only `std::array` is specialised; any other type has no `but`. */
  function But(t: Ty, vt: Ty): (r: Option<Ty>)
    ensures r.Some? <==> IsTuple(t)
    ensures r.Some? ==> IsTuple(r.value) && r.value.size == t.size && r.value.valueType == vt
  {
    match t
    case Array(_, size) => Some(Array(vt, size))
    case Basic(_) => None
  }

  /** `find_value_type<T>`: the component type of a tuple, any other type itself. */
  function FindValueType(t: Ty): (r: Ty)
    ensures IsTuple(t) ==> r == t.valueType
    ensures !IsTuple(t) ==> r == t
  {
    if t.Array? then t.valueType else t
  }

  /** `find_first_tuple<Ts...>`: the first tuple type of the list, `None`
      standing for `void` when there is none. */
  function FindFirstTuple(ts: seq<Ty>): (r: Option<Ty>)
    ensures r.Some? ==> IsTuple(r.value)
  {
    if ts == [] then None
    else if IsTuple(ts[0]) then Some(ts[0])
    else FindFirstTuple(ts[1..])
  }

  /** The first tuple is the type at the least tuple position, and `void`
      means no position holds a tuple. */
  lemma {:induction false} FindFirstTupleIsFirst(ts: seq<Ty>)
    ensures FindFirstTuple(ts).None? <==> forall i :: 0 <= i < |ts| ==> !IsTuple(ts[i])
    ensures FindFirstTuple(ts).Some? ==>
      exists i :: 0 <= i < |ts| && ts[i] == FindFirstTuple(ts).value && IsTuple(ts[i])
        && forall j :: 0 <= j < i ==> !IsTuple(ts[j])
  {
    if ts != [] && !IsTuple(ts[0]) {
      FindFirstTupleIsFirst(ts[1..]);
      if FindFirstTuple(ts).Some? {
        var i :| 0 <= i < |ts| - 1 && ts[1..][i] == FindFirstTuple(ts).value && IsTuple(ts[1..][i])
          && forall j :: 0 <= j < i ==> !IsTuple(ts[1..][j]);
        assert ts[i + 1] == ts[1..][i];
        assert forall j :: 0 <= j < i + 1 ==> !IsTuple(ts[j]) by {
          forall j | 0 <= j < i + 1 ensures !IsTuple(ts[j]) {
            if j > 0 {
              assert ts[j] == ts[1..][j - 1];
            }
          }
        }
      } else {
        forall i | 0 <= i < |ts| ensures !IsTuple(ts[i]) {
          if i > 0 {
            assert ts[i] == ts[1..][i - 1];
          }
        }
      }
    }
  }

  /** `cwise_return<Fn, Ts...>`: `but_t` of the first tuple type with the
      type `resultOf` gives `fn` called on the value types of the arguments.
      `None` when no argument is a tuple. */
  function CwiseReturn(resultOf: seq<Ty> -> Ty, ts: seq<Ty>): (r: Option<Ty>)
    ensures r.Some? <==> FindFirstTuple(ts).Some?
    ensures r.Some? ==> IsTuple(r.value) && r.value.size == FindFirstTuple(ts).value.size
  {
    var valueTypes := seq(|ts|, i requires 0 <= i < |ts| => FindValueType(ts[i]));
    match FindFirstTuple(ts)
    case None => None
    case Some(t) => But(t, resultOf(valueTypes))
  }

  // ---------------------------------------------------------------
  // Values
  // ---------------------------------------------------------------

  /** An argument of `cwise`: a scalar, or a tuple given by its components. */
  datatype Arg<T> = Scalar(v: T) | Tuple(items: seq<T>)

  /** The argument has at least `n` components: a scalar has every component. */
  predicate Covers<T>(a: Arg<T>, n: nat)
  {
    a.Scalar? || n <= |a.items|
  }

  /** What `fn` receives from an argument for component `i`: `t[i]` for a
      tuple, the scalar itself otherwise. */
  function Comp<T>(a: Arg<T>, i: nat): T
    requires Covers(a, i + 1)
  {
    match a
    case Scalar(v) => v
    case Tuple(items) => items[i]
  }

  /** The type of an argument, given the type of its scalar or components. */
  function TypeOf<T>(a: Arg<T>, t: Ty): Ty
  {
    match a
    case Scalar(_) => t
    case Tuple(items) => Array(t, |items|)
  }

  /** The type of an argument as far as sizes go: a tuple of its size, or
      a non-tuple type. */
  function ShapeOf<T>(a: Arg<T>): Ty
  {
    TypeOf(a, Basic("value"))
  }

  /** `std::tuple_size_v<find_first_tuple<Ts...>>`: the size of the index
      sequence every `cwise` overload expands over. */
  function TupleSize(ts: seq<Ty>): nat
    requires FindFirstTuple(ts).Some?
  {
    FindFirstTuple(ts).value.size
  }

  /** The pack expansion `{std::invoke(fn, t1[Is])...}` over the indices `ix`. */
  function Expand1<A, R>(fn: A -> R, a: Arg<A>, ix: seq<nat>): (r: seq<R>)
    requires forall k :: 0 <= k < |ix| ==> Covers(a, ix[k] + 1)
    ensures |r| == |ix|
    ensures forall k :: 0 <= k < |ix| ==> r[k] == fn(Comp(a, ix[k]))
  {
    if ix == [] then [] else [fn(Comp(a, ix[0]))] + Expand1(fn, a, ix[1..])
  }

  /** The pack expansion of the two-argument overloads over the indices `ix`:
      a tuple contributes `t[Is]`, a scalar itself. */
  function Expand2<A, B, R>(fn: (A, B) -> R, a: Arg<A>, b: Arg<B>, ix: seq<nat>): (r: seq<R>)
    requires forall k :: 0 <= k < |ix| ==> Covers(a, ix[k] + 1) && Covers(b, ix[k] + 1)
    ensures |r| == |ix|
    ensures forall k :: 0 <= k < |ix| ==> r[k] == fn(Comp(a, ix[k]), Comp(b, ix[k]))
  {
    if ix == [] then [] else [fn(Comp(a, ix[0]), Comp(b, ix[0]))] + Expand2(fn, a, b, ix[1..])
  }

  /** The pack expansion of the three-argument overloads over the indices `ix`. */
  function Expand3<A, B, C, R>(fn: (A, B, C) -> R, a: Arg<A>, b: Arg<B>, c: Arg<C>, ix: seq<nat>): (r: seq<R>)
    requires forall k :: 0 <= k < |ix| ==> Covers(a, ix[k] + 1) && Covers(b, ix[k] + 1) && Covers(c, ix[k] + 1)
    ensures |r| == |ix|
    ensures forall k :: 0 <= k < |ix| ==> r[k] == fn(Comp(a, ix[k]), Comp(b, ix[k]), Comp(c, ix[k]))
  {
    if ix == [] then []
    else [fn(Comp(a, ix[0]), Comp(b, ix[0]), Comp(c, ix[0]))] + Expand3(fn, a, b, c, ix[1..])
  }

  /** The size of the result of a two-argument `cwise`: the first tuple's. */
  function Size2<A, B>(a: Arg<A>, b: Arg<B>): nat
    requires a.Tuple? || b.Tuple?
  {
    if a.Tuple? then |a.items| else |b.items|
  }

  /** The size of the result of a three-argument `cwise`: the first tuple's. */
  function Size3<A, B, C>(a: Arg<A>, b: Arg<B>, c: Arg<C>): nat
    requires a.Tuple? || b.Tuple? || c.Tuple?
  {
    if a.Tuple? then |a.items| else if b.Tuple? then |b.items| else |c.items|
  }

  /** `find_first_tuple` on the argument types finds a tuple whenever one
      argument is a tuple, and its size is the first tuple argument's. */
  lemma FirstTupleOfTwo<A, B>(a: Arg<A>, b: Arg<B>)
    requires a.Tuple? || b.Tuple?
    ensures FindFirstTuple([ShapeOf(a), ShapeOf(b)]).Some?
    ensures TupleSize([ShapeOf(a), ShapeOf(b)]) == Size2(a, b)
  {
    assert [ShapeOf(a), ShapeOf(b)][1..] == [ShapeOf(b)];
  }

  lemma FirstTupleOfThree<A, B, C>(a: Arg<A>, b: Arg<B>, c: Arg<C>)
    requires a.Tuple? || b.Tuple? || c.Tuple?
    ensures FindFirstTuple([ShapeOf(a), ShapeOf(b), ShapeOf(c)]).Some?
    ensures TupleSize([ShapeOf(a), ShapeOf(b), ShapeOf(c)]) == Size3(a, b, c)
  {
    var ts := [ShapeOf(a), ShapeOf(b), ShapeOf(c)];
    assert ts[1..] == [ShapeOf(b), ShapeOf(c)];
    if !a.Tuple? {
      FirstTupleOfTwo(b, c);
    }
  }

  /** `cwise(fn, t1)` on a tuple: `fn` applied at every index of the index
      sequence of the tuple's size. */
  function Cwise1<A, R>(fn: A -> R, a: Arg<A>): (r: seq<R>)
    requires a.Tuple?
    ensures |r| == |a.items|
    ensures forall i :: 0 <= i < |r| ==> r[i] == fn(a.items[i])
  {
    assert FindFirstTuple([ShapeOf(a)]) == Some(ShapeOf(a));
    Expand1(fn, a, IndexSequence(TupleSize([ShapeOf(a)])))
  }

  /** `cwise(fn, x1, x2)`: the overloads tuple/tuple, tuple/scalar and
      scalar/tuple, expanded over the index sequence of the first tuple's
      size. Every tuple must have the first tuple's components. */
  function Cwise2<A, B, R>(fn: (A, B) -> R, a: Arg<A>, b: Arg<B>): (r: seq<R>)
    requires a.Tuple? || b.Tuple?
    requires Covers(a, Size2(a, b)) && Covers(b, Size2(a, b))
    ensures |r| == Size2(a, b)
    ensures forall i :: 0 <= i < |r| ==> r[i] == fn(Comp(a, i), Comp(b, i))
  {
    FirstTupleOfTwo(a, b);
    Expand2(fn, a, b, IndexSequence(TupleSize([ShapeOf(a), ShapeOf(b)])))
  }

  /** `cwise(fn, x1, x2, x3)`: the seven overloads with at least one tuple,
      expanded over the index sequence of the first tuple's size. */
  function Cwise3<A, B, C, R>(fn: (A, B, C) -> R, a: Arg<A>, b: Arg<B>, c: Arg<C>): (r: seq<R>)
    requires a.Tuple? || b.Tuple? || c.Tuple?
    requires Covers(a, Size3(a, b, c)) && Covers(b, Size3(a, b, c)) && Covers(c, Size3(a, b, c))
    ensures |r| == Size3(a, b, c)
    ensures forall i :: 0 <= i < |r| ==> r[i] == fn(Comp(a, i), Comp(b, i), Comp(c, i))
  {
    FirstTupleOfThree(a, b, c);
    Expand3(fn, a, b, c, IndexSequence(TupleSize([ShapeOf(a), ShapeOf(b), ShapeOf(c)])))
  }

  // ---------------------------------------------------------------
  // Properties of cwise
  // ---------------------------------------------------------------

  /** The type `cwise_return` computes for a one-argument call is the array,
      of the argument's size, of the type `fn` returns. */
  lemma Cwise1ReturnType<A, R>(resultOf: seq<Ty> -> Ty, fn: A -> R, a: Arg<A>, ta: Ty)
    requires a.Tuple?
    ensures CwiseReturn(resultOf, [TypeOf(a, ta)]) == Some(Array(resultOf([ta]), |Cwise1(fn, a)|))
  {
    assert seq(1, i requires 0 <= i < 1 => FindValueType([TypeOf(a, ta)][i])) == [ta];
  }

  /** The type `cwise_return` computes for a two-argument call is the array,
      of the first tuple's size, of the type `fn` returns on the component
      types: it describes the value `Cwise2` builds. */
  lemma Cwise2ReturnType<A, B, R>(resultOf: seq<Ty> -> Ty, fn: (A, B) -> R, a: Arg<A>, b: Arg<B>, ta: Ty, tb: Ty)
    requires a.Tuple? || b.Tuple?
    requires Covers(a, Size2(a, b)) && Covers(b, Size2(a, b))
    requires a.Scalar? ==> !IsTuple(ta)
    requires b.Scalar? ==> !IsTuple(tb)
    ensures CwiseReturn(resultOf, [TypeOf(a, ta), TypeOf(b, tb)])
         == Some(Array(resultOf([ta, tb]), |Cwise2(fn, a, b)|))
  {
    var ts := [TypeOf(a, ta), TypeOf(b, tb)];
    assert seq(2, i requires 0 <= i < 2 => FindValueType(ts[i])) == [ta, tb];
    var n := |Cwise2(fn, a, b)|;
    if a.Tuple? {
      assert FindFirstTuple(ts) == Some(Array(ta, n));
    } else {
      assert ts[1..] == [TypeOf(b, tb)];
      assert FindFirstTuple(ts) == Some(Array(tb, n));
    }
  }

  /** The same for a three-argument call. */
  lemma Cwise3ReturnType<A, B, C, R>(resultOf: seq<Ty> -> Ty, fn: (A, B, C) -> R,
                                     a: Arg<A>, b: Arg<B>, c: Arg<C>, ta: Ty, tb: Ty, tc: Ty)
    requires a.Tuple? || b.Tuple? || c.Tuple?
    requires Covers(a, Size3(a, b, c)) && Covers(b, Size3(a, b, c)) && Covers(c, Size3(a, b, c))
    requires a.Scalar? ==> !IsTuple(ta)
    requires b.Scalar? ==> !IsTuple(tb)
    requires c.Scalar? ==> !IsTuple(tc)
    ensures CwiseReturn(resultOf, [TypeOf(a, ta), TypeOf(b, tb), TypeOf(c, tc)])
         == Some(Array(resultOf([ta, tb, tc]), |Cwise3(fn, a, b, c)|))
  {
    var ts := [TypeOf(a, ta), TypeOf(b, tb), TypeOf(c, tc)];
    assert seq(3, i requires 0 <= i < 3 => FindValueType(ts[i])) == [ta, tb, tc];
    var n := |Cwise3(fn, a, b, c)|;
    if a.Tuple? {
      assert FindFirstTuple(ts) == Some(Array(ta, n));
    } else if b.Tuple? {
      assert ts[1..] == [TypeOf(b, tb), TypeOf(c, tc)];
      assert FindFirstTuple(ts) == Some(Array(tb, n));
    } else {
      assert ts[1..] == [TypeOf(b, tb), TypeOf(c, tc)];
      assert ts[1..][1..] == [TypeOf(c, tc)];
      assert FindFirstTuple(ts[1..][1..]) == Some(Array(tc, n));
      assert FindFirstTuple(ts[1..]) == Some(Array(tc, n));
    }
  }

  /** A scalar argument is broadcast: it acts as a fixed argument of `fn`. */
  lemma ScalarIsBroadcast<A, B, R>(fn: (A, B) -> R, xs: seq<A>, s: B, ys: seq<B>, t: A)
    ensures Cwise2(fn, Tuple(xs), Scalar(s)) == Cwise1(x => fn(x, s), Tuple(xs))
    ensures Cwise2(fn, Scalar(t), Tuple(ys)) == Cwise1(y => fn(t, y), Tuple(ys))
  {
  }

  /** A third scalar argument is broadcast in the same way. */
  lemma ThirdScalarIsBroadcast<A, B, C, R>(fn: (A, B, C) -> R, a: Arg<A>, b: Arg<B>, s: C)
    requires a.Tuple? || b.Tuple?
    requires Covers(a, Size2(a, b)) && Covers(b, Size2(a, b))
    ensures Cwise3(fn, a, b, Scalar(s)) == Cwise2((x, y) => fn(x, y, s), a, b)
  {
  }

  /** With tuples of equal size the order of the arguments does not matter
      beyond the order in which `fn` receives them. */
  lemma SwapTuples<A, B, R>(fn: (A, B) -> R, xs: seq<A>, ys: seq<B>)
    requires |xs| == |ys|
    ensures Cwise2(fn, Tuple(xs), Tuple(ys)) == Cwise2((y, x) => fn(x, y), Tuple(ys), Tuple(xs))
  {
  }

  /** Componentwise application composes: mapping `f` then `g` is mapping
      their composition. */
  lemma Cwise1Fuses<A, B, R>(f: A -> B, g: B -> R, xs: seq<A>)
    ensures Cwise1(g, Tuple(Cwise1(f, Tuple(xs)))) == Cwise1(x => g(f(x)), Tuple(xs))
  {
  }

  // ---------------------------------------------------------------
  // split
  // ---------------------------------------------------------------

  /** `std::make_index_sequence<n>`: the indices 0, 1, …, n - 1. */
  function IndexSequence(n: nat): (ix: seq<nat>)
    ensures |ix| == n
    ensures forall k :: 0 <= k < n ==> ix[k] == k
  {
    if n == 0 then [] else IndexSequence(n - 1) + [n - 1]
  }

  /** The pack expansion `t[Is]...`: the components at the given indices. */
  function Spread<T>(t: seq<T>, ix: seq<nat>): (args: seq<T>)
    requires forall k :: 0 <= k < |ix| ==> ix[k] < |t|
    ensures |args| == |ix|
    ensures forall k :: 0 <= k < |ix| ==> args[k] == t[ix[k]]
  {
    if ix == [] then [] else [t[ix[0]]] + Spread(t, ix[1..])
  }

  /** `split(fn, t)`: `fn` called with the components of `t` as its
      arguments, the argument list being a sequence. It passes all
      components, each once, in index order. */
  function Split<T, R>(fn: seq<T> -> R, t: seq<T>): (r: R)
    ensures r == fn(t)
  {
    assert Spread(t, IndexSequence(|t|)) == t;
    fn(Spread(t, IndexSequence(|t|)))
  }
}

=== FILE: pool_clients.dfy ===
/**
 * The two clients of the pool in `ThreadPool.hpp`: `run`, which submits a
 * task and waits on its future, and `split_for`, which submits one task per
 * batch of indices, assists, and waits for completion.
 *
 * The calling thread's steps are sequenced with the pool's atomic actions;
 * no worker acts while `split_for` submits and assists.
 */
module PoolClients {
  import opened ThreadPool
  import SplitFor

  // ---------------------------------------------------------------
  // Futures and `run`
  // ---------------------------------------------------------------

  /** What `get` on a task's future does: return, block, or throw
      `std::future_error` because the task was destroyed without running. */
  datatype FutureState = Ready | Pending | Broken

  /** The state of task `t`'s future: ready once some thread has run the
      task, pending while it was enqueued and has not run, broken when `arun`
      dropped it. */
  function FutureOf(p: Pool, t: TaskId): (r: FutureState)
    ensures r == Ready <==> exists i :: 0 <= i < |p.executions| && p.executions[i].task == t
    ensures r == Pending <==> !Resolved(p, t) && t in p.accepted
    ensures r == Broken <==> !Resolved(p, t) && t !in p.accepted
  {
    assert forall i :: 0 <= i < |p.executions| ==> Completed(p.executions)[i] == p.executions[i].task;
    if Resolved(p, t) then Ready
    else if t in p.accepted then Pending
    else Broken
  }

  /** A strictly increasing sequence holds every value at most once. */
  lemma {:induction false} IncreasingOnce(s: seq<TaskId>, t: TaskId)
    requires Increasing(s)
    ensures multiset(s)[t] <= 1
    decreases |s|
  {
    if s != [] {
      assert s == [s[0]] + s[1..];
      assert Increasing(s[1..]) by {
        forall i, j | 0 <= i < j < |s[1..]| ensures s[1..][i] < s[1..][j] {
          assert s[1..][i] == s[i + 1] && s[1..][j] == s[j + 1];
        }
      }
      IncreasingOnce(s[1..], t);
      if s[0] == t {
        assert t !in s[1..] by {
          forall j | 0 <= j < |s[1..]| ensures s[1..][j] != t {
            assert s[1..][j] == s[j + 1];
          }
        }
      }
    }
  }

  /** In a reachable state a future is pending exactly while its task is
      queued or being run, by a worker or by a thread inside `assist`: no
      accepted task is lost. */
  lemma PendingIffQueuedOrRunning(p: Pool, t: TaskId)
    requires Valid(p)
    ensures FutureOf(p, t) == Pending <==> t in p.queue || t in InFlight(p)
  {
    IncreasingOnce(p.accepted, t);
    assert multiset(p.accepted) == multiset(p.dequeued) + multiset(p.queue);
    if t in p.queue {
      assert t in p.accepted;
      assert multiset(p.dequeued)[t] == 0;
      assert t !in Completed(p.executions);
    }
    if t in InFlight(p) {
      assert multiset(p.dequeued)[t] >= 1;
      assert t in p.accepted;
      assert multiset(Completed(p.executions))[t] == 0;
    }
    if FutureOf(p, t) == Pending && t !in p.queue {
      assert t in p.dequeued;
      assert multiset(Completed(p.executions))[t] == 0;
    }
  }

  /** `run` on a pool that is not joining: the task is queued at the back,
      so `get` blocks until some thread has run it. */
  lemma RunWaitsForItsTask(p: Pool)
    requires Valid(p) && !p.joining
    ensures var (q, t) := Arun(p); FutureOf(q, t) == Pending && t == q.queue[|q.queue| - 1]
  {
    var (q, t) := Arun(p);
    NeverEnqueuedNotResolved(p, t);
  }

  /** `run` on a joining pool: the task is dropped, so whatever the other
      threads do afterwards, `get` throws. */
  lemma RunWhileJoiningThrows(p: Pool, es: seq<Event>)
    requires Valid(p) && p.joining
    ensures var (q, t) := Arun(p);
      Exec(q, es).Some? ==> FutureOf(Exec(q, es).value, t) == Broken
  {
    var (q, t) := Arun(p);
    ArunKeepsValid(p);
    ArunWhileJoiningIsDropped(p, es);
    if Exec(q, es).Some? {
      ExecKeepsAccepted(q, es, t);
    }
  }

  /** A task outside the accepted list stays outside it. */
  lemma {:induction false} ExecKeepsAccepted(p: Pool, es: seq<Event>, t: TaskId)
    requires t < p.submitted && t !in p.accepted && Exec(p, es).Some?
    ensures t !in Exec(p, es).value.accepted
    decreases |es|
  {
    if es != [] {
      NextKeepsNotEnqueued(p, es[0], t);
      ExecKeepsAccepted(Next(p, es[0]).value, es[1..], t);
    }
  }

  // ---------------------------------------------------------------
  // split_for
  // ---------------------------------------------------------------

  /** The offsets passed to `fn` by the executions `es` of batch tasks,
      task `base + b` running batch `b`. */
  function OffsetsOf(es: seq<Execution>, base: nat, bs: seq<SplitFor.Batch>): seq<nat>
    requires forall i :: 0 <= i < |es| ==> base <= es[i].task < base + |bs|
    requires forall b :: b in bs ==> SplitFor.Terminates(b)
  {
    if es == [] then []
    else SplitFor.Visits(bs[es[0].task - base]) + OffsetsOf(es[1..], base, bs)
  }

  /** Running the batch tasks in submission order visits the batches' trace. */
  lemma {:induction false} OffsetsInOrder(bs: seq<SplitFor.Batch>, base: nat, id: nat, k: nat)
    requires forall b :: b in bs ==> SplitFor.Terminates(b)
    requires k <= |bs|
    ensures var ts := seq(|bs| - k, i requires 0 <= i < |bs| - k => base + k + i);
      OffsetsOf(RunAll(ts, id), base, bs) == SplitFor.Trace(bs[k..])
    decreases |bs| - k
  {
    var ts := seq(|bs| - k, i requires 0 <= i < |bs| - k => base + k + i);
    if k < |bs| {
      OffsetsInOrder(bs, base, id, k + 1);
      var ts' := seq(|bs| - (k + 1), i requires 0 <= i < |bs| - (k + 1) => base + k + 1 + i);
      assert RunAll(ts, id)[1..] == RunAll(ts', id);
      assert bs[k..][1..] == bs[k + 1..];
    } else {
      assert bs[k..] == [];
    }
  }

  /** The submission loop of `split_for`: `n` calls of `arun`, numbered from
      `p.submitted`, each queued unless `join_` is set. */
  method SubmitAll(p: Pool, n: nat) returns (q: Pool, tasks: seq<TaskId>)
    requires Valid(p)
    ensures Valid(q)
    ensures |tasks| == n && forall b :: 0 <= b < n ==> tasks[b] == p.submitted + b
    ensures q.queue == p.queue + (if p.joining then [] else tasks)
    ensures q.accepted == p.accepted + (if p.joining then [] else tasks)
    ensures q.submitted == p.submitted + n
    ensures q == p.(submitted := q.submitted, queue := q.queue, accepted := q.accepted)
  {
    q := p;
    tasks := [];
    while |tasks| < n
      invariant Valid(q) && |tasks| <= n
      invariant forall b :: 0 <= b < |tasks| ==> tasks[b] == p.submitted + b
      invariant q.submitted == p.submitted + |tasks|
      invariant q.queue == p.queue + (if p.joining then [] else tasks)
      invariant q.accepted == p.accepted + (if p.joining then [] else tasks)
      invariant q == p.(submitted := q.submitted, queue := q.queue, accepted := q.accepted)
    {
      ArunKeepsValid(q);
      var (q', t) := Arun(q);
      q := q';
      tasks := tasks + [t];
    }
  }

  /** `n` calls of `arun` followed by `assist`, on a pool no other thread
      acts on meanwhile: the caller runs the earlier queue and then the new
      tasks, unless `join_` dropped them. */
  method SubmitThenAssist(p: Pool, n: nat) returns (q: Pool, tasks: seq<TaskId>)
    requires Valid(p)
    ensures Valid(q)
    ensures |tasks| == n && forall b :: 0 <= b < n ==> tasks[b] == p.submitted + b
    ensures q.queue == [] && q.busy == p.busy && q.workers == p.workers
    ensures q.accepted == p.accepted + (if p.joining then [] else tasks)
    ensures q.executions == p.executions + RunAll(p.queue + (if p.joining then [] else tasks), WorkerCount(p))
    ensures q.dequeued == p.dequeued + p.queue + (if p.joining then [] else tasks)
    ensures q.submitted == p.submitted + n
    ensures q == p.(submitted := q.submitted, queue := q.queue, accepted := q.accepted,
                    dequeued := q.dequeued, executions := q.executions)
  {
    var submitted;
    submitted, tasks := SubmitAll(p, n);
    assert submitted.workers == p.workers && submitted.busy == p.busy && submitted.executions == p.executions;
    q := Assist(submitted);
  }

  /** `split_for(pool, count, stride, split, at_least, fn)` on a pool no
      other thread acts on meanwhile. It submits one task per batch, numbered
      from `p.submitted`, then assists, which runs the queue front first under
      the calling thread's id. On a pool that is not joining the batch tasks
      call `fn` with `0, stride, …, (count - 1) * stride` in this order; on a
      joining pool they are dropped and only tasks queued before run. The
      final `wait_completion` returns at once when `busy_` was 0. */
  method SplitForOnPool(p: Pool, count: nat, stride: nat, split: nat, atLeast: nat)
    returns (q: Pool, batches: seq<SplitFor.Batch>, tasks: seq<TaskId>)
    requires Valid(p) && split > 0
    ensures Valid(q)
    ensures batches == SplitFor.BatchesFrom(count, stride, SplitFor.BatchSize(count, split, atLeast), 0)
    ensures |tasks| == |batches| <= split
    ensures forall b :: 0 <= b < |tasks| ==> tasks[b] == p.submitted + b
    ensures forall b :: b in batches ==> SplitFor.Terminates(b)
    ensures q.queue == [] && q.busy == p.busy && q.workers == p.workers
    ensures p.busy == 0 ==> AtRest(q)
    ensures q.executions == p.executions + RunAll(p.queue + (if p.joining then [] else tasks), WorkerCount(p))
    ensures !p.joining ==> q.executions[|p.executions| + |p.queue|..] == RunAll(tasks, WorkerCount(p))
    ensures !p.joining && stride > 0 ==>
      OffsetsOf(q.executions[|p.executions| + |p.queue|..], p.submitted, batches)
        == SplitFor.Multiples(0, count, stride)
    ensures p.joining ==> forall b :: 0 <= b < |tasks| ==> !Resolved(q, tasks[b])
    ensures q.accepted == p.accepted + (if p.joining then [] else tasks)
    ensures q.submitted == p.submitted + |tasks|
    ensures q == p.(submitted := q.submitted, queue := q.queue, accepted := q.accepted,
                    dequeued := q.dequeued, executions := q.executions)
  {
    batches := SplitFor.SplitFor(count, stride, split, atLeast);
    q, tasks := SubmitThenAssist(p, |batches|);
    BatchesRanAfterQueue(p.executions, p.queue, count, stride, split, atLeast,
                         p.submitted, WorkerCount(p), tasks, q.executions, !p.joining);
    DroppedBatchesNotResolved(p, q, tasks);
  }

  /** Executions of the batch tasks in submission order cover every multiple
      of `stride` below `count * stride` once, in order. */
  lemma RanBatchesCover(count: nat, stride: nat, split: nat, atLeast: nat, base: nat, id: nat,
                        tasks: seq<TaskId>, ran: seq<Execution>)
    requires split > 0 && stride > 0
    requires |tasks| == |SplitFor.BatchesFrom(count, stride, SplitFor.BatchSize(count, split, atLeast), 0)|
    requires forall b :: 0 <= b < |tasks| ==> tasks[b] == base + b
    requires ran == RunAll(tasks, id)
    ensures var bs := SplitFor.BatchesFrom(count, stride, SplitFor.BatchSize(count, split, atLeast), 0);
      && (forall i :: 0 <= i < |ran| ==> base <= ran[i].task < base + |bs|)
      && (forall b :: b in bs ==> SplitFor.Terminates(b))
      && OffsetsOf(ran, base, bs) == SplitFor.Multiples(0, count, stride)
  {
    BatchTasksVisitAll(count, stride, split, atLeast, base, id, tasks);
  }

  /** When the earlier queue and then the batch tasks have run, the
      executions past the earlier ones and the earlier queue are those of the
      batch tasks, and they visit every multiple of `stride` once, in order. */
  lemma BatchesRanAfterQueue(before: seq<Execution>, queued: seq<TaskId>, count: nat, stride: nat, split: nat,
                             atLeast: nat, base: nat, id: nat, tasks: seq<TaskId>, after: seq<Execution>,
                             ran: bool)
    requires split > 0
    requires |tasks| == |SplitFor.BatchesFrom(count, stride, SplitFor.BatchSize(count, split, atLeast), 0)|
    requires forall b :: 0 <= b < |tasks| ==> tasks[b] == base + b
    requires ran ==> after == before + RunAll(queued + tasks, id)
    ensures ran ==> after[|before| + |queued|..] == RunAll(tasks, id)
    ensures ran && stride > 0 ==>
      var suffix := after[|before| + |queued|..];
      var bs := SplitFor.BatchesFrom(count, stride, SplitFor.BatchSize(count, split, atLeast), 0);
      && (forall i :: 0 <= i < |suffix| ==> base <= suffix[i].task < base + |bs|)
      && (forall b :: b in bs ==> SplitFor.Terminates(b))
      && OffsetsOf(suffix, base, bs) == SplitFor.Multiples(0, count, stride)
  {
    if !ran {
      return;
    }
    RunAllSuffix(before, queued, tasks, id);
    if stride > 0 {
      RanBatchesCover(count, stride, split, atLeast, base, id, tasks, after[|before| + |queued|..]);
    }
  }

  /** When `join_` was set, `arun` dropped the new tasks, so none of them
      has run afterwards. */
  lemma DroppedBatchesNotResolved(p: Pool, q: Pool, tasks: seq<TaskId>)
    requires Valid(p) && Valid(q)
    requires q.accepted == p.accepted + (if p.joining then [] else tasks)
    requires forall b :: 0 <= b < |tasks| ==> tasks[b] == p.submitted + b
    ensures p.joining ==> forall b :: 0 <= b < |tasks| ==> !Resolved(q, tasks[b])
  {
    if p.joining {
      FreshTasksNotResolved(q, p.submitted, tasks);
    }
  }

  /** The executions that follow the earlier ones and the earlier queue are
      those of the new tasks. */
  lemma RunAllSuffix(es: seq<Execution>, queued: seq<TaskId>, ts: seq<TaskId>, id: nat)
    ensures (es + RunAll(queued + ts, id))[|es| + |queued|..] == RunAll(ts, id)
  {
    assert (es + RunAll(queued + ts, id))[|es| + |queued|..] == RunAll(queued + ts, id)[|queued|..];
  }

  /** Tasks numbered from `base` on, where every enqueued task is older, have
      not run. */
  lemma FreshTasksNotResolved(q: Pool, base: nat, ts: seq<TaskId>)
    requires Valid(q) && forall i :: 0 <= i < |q.accepted| ==> q.accepted[i] < base
    requires forall b :: 0 <= b < |ts| ==> ts[b] >= base
    ensures forall b :: 0 <= b < |ts| ==> !Resolved(q, ts[b])
  {
    forall b | 0 <= b < |ts|
      ensures !Resolved(q, ts[b])
    {
      NeverEnqueuedNotResolved(q, ts[b]);
    }
  }

  /** The batch tasks of `split_for`, run in submission order, visit each
      multiple of `stride` below `count * stride` once, in increasing order. */
  lemma BatchTasksVisitAll(count: nat, stride: nat, split: nat, atLeast: nat, base: nat, id: nat, tasks: seq<TaskId>)
    requires split > 0 && stride > 0
    requires |tasks| == |SplitFor.BatchesFrom(count, stride, SplitFor.BatchSize(count, split, atLeast), 0)|
    requires forall b :: 0 <= b < |tasks| ==> tasks[b] == base + b
    ensures var bs := SplitFor.BatchesFrom(count, stride, SplitFor.BatchSize(count, split, atLeast), 0);
      (forall b :: b in bs ==> SplitFor.Terminates(b))
      && OffsetsOf(RunAll(tasks, id), base, bs) == SplitFor.Multiples(0, count, stride)
  {
    var bs := SplitFor.BatchesFrom(count, stride, SplitFor.BatchSize(count, split, atLeast), 0);
    SplitFor.Coverage(count, stride, split, atLeast);
    assert tasks == seq(|bs| - 0, i requires 0 <= i < |bs| - 0 => base + 0 + i);
    OffsetsInOrder(bs, base, id, 0);
    assert bs[0..] == bs;
  }
}

=== FILE: scoped_enum.dfy ===
/**
 * The bitfield operators and ranges of `scoped_enum_utils.hpp` for a scoped
 * enumeration whose underlying type is `uint32_t`.
 *
 * An underlying value is an integer in [0, 2^32). Its binary digits are the
 * sequence `Bits`, least significant first. The bitwise operators act digit
 * by digit, as the C++ standard defines them, and the shifts act
 * arithmetically: `x << n` is `x * 2^n` reduced modulo 2^32, and `x >> n` is
 * `x / 2^n`. The lemmas relate the two views.
 */
module ScopedEnum {
  import opened Arith

  /** Number of bits of the underlying type `uint32_t`. */
  const Width: nat := 32
  const Modulus: nat := 0x1_0000_0000

  /** A value of the underlying type. */
  type U32 = x: int | 0 <= x < 0x1_0000_0000

  function Pow2(n: nat): (p: nat)
    ensures p > 0
  {
    if n == 0 then 1 else 2 * Pow2(n - 1)
  }

  lemma Pow2Width()
    ensures Pow2(Width) == Modulus
  {
    assert Pow2(8) == 256;
    assert Pow2(16) == 65536;
    assert Pow2(24) == 16777216;
  }

  function Zeros(n: nat): (bs: seq<bool>)
  {
    seq(n, _ => false)
  }

  function ToBits(x: nat, n: nat): (bs: seq<bool>)
    ensures |bs| == n
  {
    if n == 0 then [] else [x % 2 == 1] + ToBits(x / 2, n - 1)
  }

  function FromBits(bs: seq<bool>): (x: nat)
    ensures x < Pow2(|bs|)
  {
    if bs == [] then 0 else (if bs[0] then 1 else 0) + 2 * FromBits(bs[1..])
  }

  lemma {:induction false} FromToBits(x: nat, n: nat)
    requires x < Pow2(n)
    ensures FromBits(ToBits(x, n)) == x
  {
    if n > 0 {
      FromToBits(x / 2, n - 1);
      assert ToBits(x, n)[1..] == ToBits(x / 2, n - 1);
    }
  }

  lemma {:induction false} ToFromBits(bs: seq<bool>)
    ensures ToBits(FromBits(bs), |bs|) == bs
  {
    if bs != [] {
      ToFromBits(bs[1..]);
      var x := FromBits(bs);
      assert x / 2 == FromBits(bs[1..]);
      assert (x % 2 == 1) == bs[0];
    }
  }

  lemma {:induction false} ZerosValue(n: nat)
    ensures FromBits(Zeros(n)) == 0
  {
    if n > 0 {
      ZerosValue(n - 1);
      assert Zeros(n)[1..] == Zeros(n - 1);
    }
  }

  /** Prepending `k` zero bits multiplies the value by 2^k. */
  lemma {:induction false} LowZeros(k: nat, s: seq<bool>)
    ensures FromBits(Zeros(k) + s) == Pow2(k) * FromBits(s)
  {
    if k > 0 {
      LowZeros(k - 1, s);
      var t := Zeros(k) + s;
      assert t[0] == false && t[1..] == Zeros(k - 1) + s;
      assert FromBits(t) == 2 * FromBits(Zeros(k - 1) + s);
      Double(Pow2(k - 1), FromBits(s));
    } else {
      assert Zeros(k) + s == s;
    }
  }

  /** Appending zero bits leaves the value unchanged. */
  lemma {:induction false} HighZeros(s: seq<bool>, k: nat)
    ensures FromBits(s + Zeros(k)) == FromBits(s)
  {
    if s == [] {
      assert s + Zeros(k) == Zeros(k);
      ZerosValue(k);
    } else {
      HighZeros(s[1..], k);
      assert (s + Zeros(k))[1..] == s[1..] + Zeros(k);
    }
  }

  /** The value splits at bit `k` into a low and a high part. */
  lemma {:induction false} SplitValue(s: seq<bool>, k: nat)
    requires k <= |s|
    ensures FromBits(s) == FromBits(s[..k]) + Pow2(k) * FromBits(s[k..])
  {
    if k > 0 {
      SplitValue(s[1..], k - 1);
      var b := if s[0] then 1 else 0;
      assert FromBits(s) == b + 2 * FromBits(s[1..]);
      assert s[..k][0] == s[0];
      assert FromBits(s[..k]) == b + 2 * FromBits(s[..k][1..]);
      assert s[1..][..k - 1] == s[..k][1..];
      assert s[1..][k - 1..] == s[k..];
      Double(Pow2(k - 1), FromBits(s[k..]));
    }
  }

  lemma {:induction false} ZeroBits(n: nat)
    ensures ToBits(0, n) == Zeros(n)
  {
    if n > 0 {
      ZeroBits(n - 1);
    }
  }

  lemma {:induction false} Pow2Add(a: nat, b: nat)
    ensures Pow2(a + b) == Pow2(a) * Pow2(b)
  {
    if a > 0 {
      Pow2Add(a - 1, b);
      Double(Pow2(a - 1), Pow2(b));
    }
  }

  // ---------------------------------------------------------------
  // Scoped enumerations over a 32-bit unsigned underlying type
  // ---------------------------------------------------------------

  /** A scoped enumeration value: nothing but a wrapper around its
      underlying `uint32_t` value. */
  datatype Enum = Enum(value: U32)

  function AsValue(e: Enum): (v: U32)
  {
    e.value
  }

  function As(v: U32): (e: Enum)
    ensures AsValue(e) == v
  {
    Enum(v)
  }

  lemma AsValueRoundTrip(e: Enum)
    ensures As(AsValue(e)) == e
  {
  }

  /** The 32 binary digits of an enum value, least significant first. */
  function Bits(e: Enum): (bs: seq<bool>)
    ensures |bs| == Width
  {
    ToBits(e.value, Width)
  }

  function OfBits(bs: seq<bool>): (e: Enum)
    requires |bs| == Width
  {
    Pow2Width();
    Enum(FromBits(bs))
  }

  lemma BitsRoundTrip(e: Enum)
    ensures OfBits(Bits(e)) == e
  {
    Pow2Width();
    FromToBits(e.value, Width);
  }

  lemma OfBitsRoundTrip(bs: seq<bool>)
    requires |bs| == Width
    ensures Bits(OfBits(bs)) == bs
  {
    ToFromBits(bs);
  }

  /** Two enum values are equal exactly when all their bits are. */
  lemma BitsInjective(x: Enum, y: Enum)
    ensures x == y <==> Bits(x) == Bits(y)
  {
    BitsRoundTrip(x);
    BitsRoundTrip(y);
  }

  /** Bit `i` of an enum value, bit 0 being the least significant. */
  predicate Bit(e: Enum, i: nat)
    requires i < Width
  {
    Bits(e)[i]
  }

  // ---------------------------------------------------------------
  // Bitwise operators: `static_cast<E>(as_value(lhs) op as_value(rhs))`
  // ---------------------------------------------------------------

  /** Combines two bit strings position by position. */
  function Zip(a: seq<bool>, b: seq<bool>, f: (bool, bool) -> bool): (c: seq<bool>)
    requires |a| == |b|
    ensures |c| == |a|
    ensures forall i :: 0 <= i < |a| ==> c[i] == f(a[i], b[i])
  {
    seq(|a|, i requires 0 <= i < |a| => f(a[i], b[i]))
  }

  /** Complements every bit of a bit string. */
  function Flip(a: seq<bool>): (c: seq<bool>)
    ensures |c| == |a|
    ensures forall i :: 0 <= i < |a| ==> c[i] == !a[i]
  {
    seq(|a|, i requires 0 <= i < |a| => !a[i])
  }

  function Or(lhs: Enum, rhs: Enum): (r: Enum)
    ensures forall i :: 0 <= i < Width ==> (Bit(r, i) <==> Bit(lhs, i) || Bit(rhs, i))
  {
    var bs := Zip(Bits(lhs), Bits(rhs), (p, q) => p || q);
    OfBitsRoundTrip(bs);
    OfBits(bs)
  }

  function And(lhs: Enum, rhs: Enum): (r: Enum)
    ensures forall i :: 0 <= i < Width ==> (Bit(r, i) <==> Bit(lhs, i) && Bit(rhs, i))
  {
    var bs := Zip(Bits(lhs), Bits(rhs), (p, q) => p && q);
    OfBitsRoundTrip(bs);
    OfBits(bs)
  }

  function Xor(lhs: Enum, rhs: Enum): (r: Enum)
    ensures forall i :: 0 <= i < Width ==> (Bit(r, i) <==> Bit(lhs, i) != Bit(rhs, i))
  {
    var bs := Zip(Bits(lhs), Bits(rhs), (p, q) => p != q);
    OfBitsRoundTrip(bs);
    OfBits(bs)
  }

  function Not(x: Enum): (r: Enum)
    ensures forall i :: 0 <= i < Width ==> (Bit(r, i) <==> !Bit(x, i))
  {
    var bs := Flip(Bits(x));
    OfBitsRoundTrip(bs);
    OfBits(bs)
  }

  /** Binary addition without carries: `a | b` and `a & b` together hold
      every set bit of `a` and of `b`. */
  lemma {:induction false} OrAndDigits(a: seq<bool>, b: seq<bool>)
    requires |a| == |b|
    ensures FromBits(Zip(a, b, (p, q) => p || q)) + FromBits(Zip(a, b, (p, q) => p && q))
         == FromBits(a) + FromBits(b)
  {
    if a != [] {
      OrAndDigits(a[1..], b[1..]);
      assert Zip(a, b, (p, q) => p || q)[1..] == Zip(a[1..], b[1..], (p, q) => p || q);
      assert Zip(a, b, (p, q) => p && q)[1..] == Zip(a[1..], b[1..], (p, q) => p && q);
    }
  }

  lemma {:induction false} XorAndDigits(a: seq<bool>, b: seq<bool>)
    requires |a| == |b|
    ensures FromBits(Zip(a, b, (p, q) => p != q)) + 2 * FromBits(Zip(a, b, (p, q) => p && q))
         == FromBits(a) + FromBits(b)
  {
    if a != [] {
      XorAndDigits(a[1..], b[1..]);
      assert Zip(a, b, (p, q) => p != q)[1..] == Zip(a[1..], b[1..], (p, q) => p != q);
      assert Zip(a, b, (p, q) => p && q)[1..] == Zip(a[1..], b[1..], (p, q) => p && q);
    }
  }

  lemma {:induction false} FlipDigits(a: seq<bool>)
    ensures FromBits(Flip(a)) + FromBits(a) == Pow2(|a|) - 1
  {
    if a != [] {
      FlipDigits(a[1..]);
      assert Flip(a)[1..] == Flip(a[1..]);
    }
  }

  lemma ValueOfBits(e: Enum)
    ensures FromBits(Bits(e)) == e.value
  {
    Pow2Width();
    FromToBits(e.value, Width);
  }

  /** `x | y` and `x & y` add up to `x + y`: no carry is ever lost. */
  lemma OrPlusAnd(x: Enum, y: Enum)
    ensures AsValue(Or(x, y)) + AsValue(And(x, y)) == AsValue(x) + AsValue(y)
  {
    ValueOfBits(x);
    ValueOfBits(y);
    OrAndDigits(Bits(x), Bits(y));
  }

  /** `x ^ y` is the sum `x + y` without the carries `2 * (x & y)`. */
  lemma XorIsSumWithoutCarries(x: Enum, y: Enum)
    ensures AsValue(Xor(x, y)) == AsValue(x) + AsValue(y) - 2 * AsValue(And(x, y))
  {
    ValueOfBits(x);
    ValueOfBits(y);
    XorAndDigits(Bits(x), Bits(y));
  }

  /** `~x` is `2^32 - 1 - x` on the underlying unsigned value. */
  lemma NotIsComplement(x: Enum)
    ensures AsValue(Not(x)) == Modulus - 1 - AsValue(x)
  {
    ValueOfBits(x);
    FlipDigits(Bits(x));
    Pow2Width();
  }

  // ---------------------------------------------------------------
  // Shifts: as the C++ standard defines them on unsigned operands,
  // `x << n` is `x * 2^n` reduced modulo 2^32 and `x >> n` is `x / 2^n`
  // ---------------------------------------------------------------

  /** `lhs << rhs`; a shift by the width or more is undefined in C++. */
  function Shl(lhs: Enum, rhs: nat): (r: Enum)
    requires rhs < Width
    ensures Bits(r) == Zeros(rhs) + Bits(lhs)[..Width - rhs]
  {
    ShlDigits(lhs, rhs);
    As((lhs.value * Pow2(rhs)) % Modulus)
  }

  /** `lhs >> rhs`; a shift by the width or more is undefined in C++. */
  function Shr(lhs: Enum, rhs: nat): (r: Enum)
    requires rhs < Width
    ensures Bits(r) == Bits(lhs)[rhs..] + Zeros(rhs)
  {
    ShrDigits(lhs, rhs);
    As(lhs.value / Pow2(rhs))
  }

  /** Scaling a value split at `q` by `p` keeps only its scaled low part modulo `p * q`. */
  lemma ScaledLowPart(l: nat, h: nat, p: nat, q: nat)
    requires 0 < p && l < q
    ensures ((l + q * h) * p) % (p * q) == p * l
  {
    assert (l + q * h) * p == h * (p * q) + p * l;
    MulMono(l + 1, q, p);
    DivModUnique((l + q * h) * p, p * q, h, p * l);
  }

  /** Dividing a value split at `p` by `p` keeps its high part. */
  lemma HighPart(l: nat, h: nat, p: nat)
    requires l < p
    ensures (l + p * h) / p == h
  {
    DivModUnique(l + p * h, p, h, l);
  }

  lemma ShlDigits(x: Enum, n: nat)
    requires n < Width
    ensures (x.value * Pow2(n)) % Modulus < Modulus
    ensures Bits(Enum((x.value * Pow2(n)) % Modulus)) == Zeros(n) + Bits(x)[..Width - n]
  {
    var s := Bits(x);
    var low := s[..Width - n];
    ValueOfBits(x);
    SplitValue(s, Width - n);
    Pow2Add(n, Width - n);
    Pow2Width();
    ScaledLowPart(FromBits(low), FromBits(s[Width - n..]), Pow2(n), Pow2(Width - n));
    LowZeros(n, low);
    OfBitsRoundTrip(Zeros(n) + low);
  }

  lemma ShrDigits(x: Enum, n: nat)
    requires n < Width
    ensures 0 <= x.value / Pow2(n) < Modulus
    ensures Bits(Enum(x.value / Pow2(n))) == Bits(x)[n..] + Zeros(n)
  {
    var s := Bits(x);
    var l, h := FromBits(s[..n]), FromBits(s[n..]);
    ValueOfBits(x);
    SplitValue(s, n);
    assert x.value == l + Pow2(n) * h;
    HighPart(l, h, Pow2(n));
    assert x.value / Pow2(n) == h;
    var c := s[n..] + Zeros(n);
    HighZeros(s[n..], n);
    Pow2Width();
    assert OfBits(c) == Enum(h);
    OfBitsRoundTrip(c);
  }

  lemma {:induction false} ZeroValueZeros(bs: seq<bool>)
    requires FromBits(bs) == 0
    ensures bs == Zeros(|bs|)
  {
    if bs != [] {
      ZeroValueZeros(bs[1..]);
    }
  }

  /** A value below 2^k has no set bit at position k or above. */
  lemma HighBitsClear(x: Enum, k: nat)
    requires k <= Width && x.value < Pow2(k)
    ensures Bits(x)[k..] == Zeros(Width - k)
  {
    var s := Bits(x);
    var l, h := FromBits(s[..k]), FromBits(s[k..]);
    ValueOfBits(x);
    SplitValue(s, k);
    if h > 0 {
      MulMono(1, h, Pow2(k));
    }
    ZeroValueZeros(s[k..]);
  }

  /** Shifting left and back right restores a value whose top `n` bits are clear. */
  lemma ShiftRoundTrip(x: Enum, n: nat)
    requires n < Width && x.value < Pow2(Width - n)
    ensures Shr(Shl(x, n), n) == x
  {
    var s := Bits(x);
    HighBitsClear(x, Width - n);
    assert s == s[..Width - n] + Zeros(n);
    assert (Zeros(n) + s[..Width - n])[n..] == s[..Width - n];
    BitsInjective(Shr(Shl(x, n), n), x);
  }

  // ---------------------------------------------------------------
  // Bit-set queries: all, any, none
  // ---------------------------------------------------------------

  /** `all(x, y)`: `(x & y) == y`. */
  predicate All(x: Enum, y: Enum)
  {
    And(x, y) == y
  }

  /** `any(x, y)`: `(x & y) != 0`. */
  predicate Any(x: Enum, y: Enum)
  {
    And(x, y) != As(0)
  }

  /** `none(x, y)`: `!any(x, y)`. */
  predicate None(x: Enum, y: Enum)
  {
    !Any(x, y)
  }

  /** All bits set in `y` are set in `x`, and conversely. */
  lemma AllMeansSubset(x: Enum, y: Enum)
    ensures All(x, y) <==> forall i :: 0 <= i < Width ==> (Bit(y, i) ==> Bit(x, i))
  {
    var a := And(x, y);
    BitsInjective(a, y);
    if forall i :: 0 <= i < Width ==> (Bit(y, i) ==> Bit(x, i)) {
      forall i | 0 <= i < Width
        ensures Bits(a)[i] == Bits(y)[i]
      {
        assert Bit(a, i) <==> Bit(x, i) && Bit(y, i);
      }
      assert Bits(a) == Bits(y);
    }
  }

  /** Every value contains the empty bit set and itself. */
  lemma AllEmptyAndSelf(x: Enum)
    ensures All(x, As(0)) && All(x, x)
  {
    ZeroHasNoBits();
    AllMeansSubset(x, As(0));
    AllMeansSubset(x, x);
  }

  lemma ZeroHasNoBits()
    ensures Bits(As(0)) == Zeros(Width)
  {
    ZeroBits(Width);
  }

  /** Some bit is set in both `x` and `y`, and conversely. */
  lemma AnyMeansCommonBit(x: Enum, y: Enum)
    ensures Any(x, y) <==> exists i :: 0 <= i < Width && Bit(x, i) && Bit(y, i)
  {
    var a := And(x, y);
    ZeroHasNoBits();
    BitsInjective(a, As(0));
    if !exists i :: 0 <= i < Width && Bit(x, i) && Bit(y, i) {
      forall i | 0 <= i < Width
        ensures Bits(a)[i] == Zeros(Width)[i]
      {
        assert Bit(a, i) <==> Bit(x, i) && Bit(y, i);
      }
      assert Bits(a) == Zeros(Width);
    }
    if Any(x, y) {
      var i :| 0 <= i < Width && Bits(a)[i] != Zeros(Width)[i];
      assert Bit(x, i) && Bit(y, i);
    }
  }

  /** No bit is set in both `x` and `y`, and conversely. */
  lemma NoneMeansDisjoint(x: Enum, y: Enum)
    ensures None(x, y) <==> forall i :: 0 <= i < Width ==> !(Bit(x, i) && Bit(y, i))
  {
    AnyMeansCommonBit(x, y);
  }

  /** `x | y` then `| y` again adds nothing. */
  lemma OrIdempotent(x: Enum, y: Enum)
    ensures Or(Or(x, y), y) == Or(x, y)
    ensures All(Or(x, y), y)
  {
    var o := Or(x, y);
    BitsInjective(Or(o, y), o);
    assert forall i :: 0 <= i < Width ==> Bits(Or(o, y))[i] == Bits(o)[i] by {
      forall i | 0 <= i < Width ensures Bits(Or(o, y))[i] == Bits(o)[i] {
        assert Bit(Or(o, y), i) <==> Bit(o, i) || Bit(y, i);
        assert Bit(o, i) <==> Bit(x, i) || Bit(y, i);
      }
    }
    AllMeansSubset(o, y);
    forall i | 0 <= i < Width ensures Bit(y, i) ==> Bit(o, i) {
      assert Bit(o, i) <==> Bit(x, i) || Bit(y, i);
    }
  }

  /** `x ^ y ^ y` is `x`. */
  lemma XorInvolution(x: Enum, y: Enum)
    ensures Xor(Xor(x, y), y) == x
  {
    var d := Xor(x, y);
    BitsInjective(Xor(d, y), x);
    forall i | 0 <= i < Width ensures Bits(Xor(d, y))[i] == Bits(x)[i] {
      assert Bit(Xor(d, y), i) <==> Bit(d, i) != Bit(y, i);
      assert Bit(d, i) <==> Bit(x, i) != Bit(y, i);
    }
  }

  /** `x & y` keeps only bits of `y`, so `y` holds all its bits. */
  lemma AndKeepsSubset(x: Enum, y: Enum)
    ensures All(y, And(x, y)) && All(x, And(x, y))
  {
    var a := And(x, y);
    AllMeansSubset(y, a);
    AllMeansSubset(x, a);
    forall i | 0 <= i < Width ensures Bit(a, i) ==> Bit(x, i) && Bit(y, i) {
      assert Bit(a, i) <==> Bit(x, i) && Bit(y, i);
    }
  }

  /** `~~x` is `x`. */
  lemma NotInvolution(x: Enum)
    ensures Not(Not(x)) == x
  {
    BitsInjective(Not(Not(x)), x);
    forall i | 0 <= i < Width ensures Bits(Not(Not(x)))[i] == Bits(x)[i] {
      assert Bit(Not(Not(x)), i) <==> !Bit(Not(x), i);
    }
  }

  // ---------------------------------------------------------------
  // Compound assignments: `lhs op= rhs` stores `lhs op rhs` into `lhs`
  // and returns a reference to `lhs`
  // ---------------------------------------------------------------

  /** The operator and right operand of a compound assignment. */
  datatype Assignment =
    | ShlBy(count: nat)
    | ShrBy(count: nat)
    | OrWith(operand: Enum)
    | AndWith(operand: Enum)
    | XorWith(operand: Enum)

  /** Shifting by the width or more is undefined behaviour. */
  predicate Defined(a: Assignment)
  {
    (a.ShlBy? || a.ShrBy?) ==> a.count < Width
  }

  /** `lhs op= rhs`: returns the value stored into `lhs` and the value the
      returned reference denotes. */
  method Assign(lhs: Enum, a: Assignment) returns (stored: Enum, result: Enum)
    requires Defined(a)
    ensures result == stored
    ensures a.ShlBy? ==> stored == Shl(lhs, a.count)
    ensures a.ShrBy? ==> stored == Shr(lhs, a.count)
    ensures a.OrWith? ==> stored == Or(lhs, a.operand)
    ensures a.AndWith? ==> stored == And(lhs, a.operand)
    ensures a.XorWith? ==> stored == Xor(lhs, a.operand)
    ensures a.ShlBy? ==> Bits(stored) == Zeros(a.count) + Bits(lhs)[..Width - a.count]
    ensures a.ShrBy? ==> Bits(stored) == Bits(lhs)[a.count..] + Zeros(a.count)
    ensures a.OrWith? ==> AsValue(stored) + AsValue(And(lhs, a.operand)) == AsValue(lhs) + AsValue(a.operand)
    ensures a.AndWith? ==> forall i :: 0 <= i < Width ==> (Bit(stored, i) <==> Bit(lhs, i) && Bit(a.operand, i))
    ensures a.XorWith? ==> Xor(stored, a.operand) == lhs
  {
    match a {
      case ShlBy(n) => stored := Shl(lhs, n);
      case ShrBy(n) => stored := Shr(lhs, n);
      case OrWith(rhs) =>
        stored := Or(lhs, rhs);
        OrPlusAnd(lhs, rhs);
      case AndWith(rhs) => stored := And(lhs, rhs);
      case XorWith(rhs) =>
        stored := Xor(lhs, rhs);
        XorInvolution(lhs, rhs);
    }
    result := stored;
  }

  // ---------------------------------------------------------------
  // Ranges of consecutive enum values
  // ---------------------------------------------------------------

  /** `Range<E, F, L>`: the elements whose values run from `F` to `L`. */
  datatype Range = Range(first: Enum, last: Enum)

  /** The range's static assertion: `as_value(F) <= as_value(L)`. */
  predicate ValidRange(r: Range)
  {
    AsValue(r.first) <= AsValue(r.last)
  }

  /** `count`, computed as `last_value - first_value + 1` in `uint32_t`,
      wraps to zero when the range covers every value. */
  function Count(r: Range): (n: U32)
    requires ValidRange(r)
    ensures n == 0 <==> AsValue(r.first) == 0 && AsValue(r.last) == Modulus - 1
    ensures n != 0 ==> n == AsValue(r.last) - AsValue(r.first) + 1
  {
    (AsValue(r.last) - AsValue(r.first) + 1) % Modulus
  }

  /** `index_from(e)`: `as_value(e) - first_value`, modulo 2^32. Inside the
      range the subtraction does not wrap: the index is the distance from
      the first element. */
  function IndexFrom(r: Range, e: Enum): (i: U32)
    ensures Has(r, e) ==> i == AsValue(e) - AsValue(r.first) <= AsValue(r.last) - AsValue(r.first)
    ensures AsValue(e) >= AsValue(r.first) ==> i == AsValue(e) - AsValue(r.first)
    ensures AsValue(e) < AsValue(r.first) ==> i == AsValue(e) - AsValue(r.first) + Modulus
  {
    (AsValue(e) - AsValue(r.first)) % Modulus
  }

  /** `enum_from(i)`: the element of value `i + first_value`, modulo 2^32.
      An index up to `last - first` gives an element of the range without
      wrapping. */
  function EnumFrom(r: Range, i: U32): (e: Enum)
    ensures i <= AsValue(r.last) - AsValue(r.first) ==> AsValue(e) == AsValue(r.first) + i && Has(r, e)
    ensures i + AsValue(r.first) < Modulus ==> AsValue(e) == i + AsValue(r.first)
    ensures i + AsValue(r.first) >= Modulus ==> AsValue(e) == i + AsValue(r.first) - Modulus
  {
    As((i + AsValue(r.first)) % Modulus)
  }

  /** `has(e)`: `first_value <= as_value(e) <= last_value`. */
  predicate Has(r: Range, e: Enum)
  {
    AsValue(r.first) <= AsValue(e) <= AsValue(r.last)
  }

  /** `index_from` and `enum_from` are inverse to each other on all values. */
  lemma IndexRoundTrip(r: Range, i: U32, e: Enum)
    ensures IndexFrom(r, EnumFrom(r, i)) == i
    ensures EnumFrom(r, IndexFrom(r, e)) == e
  {
    var f := AsValue(r.first);
    if i + f >= Modulus {
      assert (i + f) % Modulus == i + f - Modulus;
    }
    if AsValue(e) < f {
      assert IndexFrom(r, e) == AsValue(e) - f + Modulus;
    }
  }

  /** An element is in the range exactly when its index is below the count,
      unless the count has wrapped to zero. */
  lemma HasMeansIndexBelowCount(r: Range, e: Enum)
    requires ValidRange(r)
    ensures Has(r, e) <==> IndexFrom(r, e) <= AsValue(r.last) - AsValue(r.first)
    ensures Count(r) != 0 ==> (Has(r, e) <==> IndexFrom(r, e) < Count(r))
  {
    var f := AsValue(r.first);
    if AsValue(e) < f {
      assert IndexFrom(r, e) == AsValue(e) - f + Modulus;
    }
  }

  /** `Range::Iterator`: holds an underlying value. */
  datatype Iterator = Iterator(value: U32)

  /** `*it` */
  function Deref(it: Iterator): Enum
  {
    As(it.value)
  }

  /** `++it`, which wraps like any `uint32_t` increment. */
  function Incr(it: Iterator): (r: Iterator)
    ensures it.value < Modulus - 1 ==> r.value == it.value + 1
    ensures it.value == Modulus - 1 ==> r.value == 0
  {
    Iterator((it.value + 1) % Modulus)
  }

  /** `it != other` */
  predicate Differs(it: Iterator, other: Iterator)
  {
    it.value != other.value
  }

  /** `begin(range)`: an iterator on `F`. */
  function Begin(r: Range): (it: Iterator)
    ensures Deref(it) == r.first
  {
    Iterator(AsValue(r.first))
  }

  /** `end(range)`: one increment past an iterator on `L`; it wraps to the
      value 0 when `L` is the largest value. */
  function End(r: Range): (it: Iterator)
    ensures AsValue(r.last) < Modulus - 1 ==> it.value == AsValue(r.last) + 1
    ensures AsValue(r.last) == Modulus - 1 ==> it.value == 0
  {
    Incr(Iterator(AsValue(r.last)))
  }

  /** `for (E e : range)`: the elements a range-based for loop visits, in order.
      They are the first `Count(r)` elements of the range, so a range over
      every value visits nothing. */
  method Iterate(r: Range) returns (elems: seq<Enum>)
    requires ValidRange(r)
    ensures |elems| == Count(r)
    ensures forall k :: 0 <= k < |elems| ==> elems[k] == EnumFrom(r, k) && Has(r, elems[k])
    ensures forall k :: 0 <= k < |elems| ==> AsValue(elems[k]) == AsValue(r.first) + k
    ensures Count(r) != 0 ==> forall e :: Has(r, e) ==> e in elems
  {
    var f, l := AsValue(r.first), AsValue(r.last);
    var size := l - f + 1;
    var it := Begin(r);
    elems := [];
    while Differs(it, End(r))
      invariant |elems| <= size
      invariant size == Modulus ==> |elems| == 0
      invariant it.value == (f + |elems|) % Modulus
      invariant forall k :: 0 <= k < |elems| ==> elems[k] == EnumFrom(r, k) && Has(r, elems[k])
      invariant forall k :: 0 <= k < |elems| ==> AsValue(elems[k]) == f + k
      decreases size - |elems|
    {
      elems := elems + [Deref(it)];
      it := Incr(it);
    }
    if Count(r) != 0 {
      forall e | Has(r, e)
        ensures e in elems
      {
        assert elems[AsValue(e) - f] == e;
      }
    }
  }

  /** The range over every `uint32_t` value: its count wraps to zero and its
      end iterator equals its begin iterator, so a range-based for loop over
      it visits no element. */
  lemma FullRangeVisitsNothing()
    ensures var r := Range(As(0), As(Modulus - 1));
      ValidRange(r) && Count(r) == 0 && !Differs(Begin(r), End(r))
  {
  }

  /** Iteration corrected to stop after visiting `L` instead of comparing
      against one past `L`: it visits every element of any valid range. */
  method IterateAll(r: Range) returns (elems: seq<Enum>)
    requires ValidRange(r)
    ensures |elems| == AsValue(r.last) - AsValue(r.first) + 1
    ensures forall k :: 0 <= k < |elems| ==> elems[k] == EnumFrom(r, k)
    ensures forall k :: 0 <= k < |elems| ==> AsValue(elems[k]) == AsValue(r.first) + k
    ensures forall e :: Has(r, e) <==> e in elems
  {
    var f, l := AsValue(r.first), AsValue(r.last);
    var it := Begin(r);
    elems := [Deref(it)];
    while Differs(it, Iterator(l))
      invariant 1 <= |elems| <= l - f + 1
      invariant it.value == f + |elems| - 1
      invariant forall k :: 0 <= k < |elems| ==> elems[k] == EnumFrom(r, k) && Has(r, elems[k])
      invariant forall k :: 0 <= k < |elems| ==> AsValue(elems[k]) == f + k
      decreases l - f + 1 - |elems|
    {
      it := Incr(it);
      elems := elems + [Deref(it)];
    }
    forall e | Has(r, e)
      ensures e in elems
    {
      assert elems[AsValue(e) - f] == e;
    }
  }
}

=== FILE: split_for.dfy ===
/**
 * The batch partition performed by `split_for`: the index range [0, count)
 * is cut into consecutive batches of `batch` indices, one pool task per
 * batch, and each task visits the offsets `k * stride` of its indices.
 *
 * Indices are unbounded naturals: the `size_t` products `i * stride` and
 * `stride * min(i + batch, count)` are assumed not to overflow.
 */
module SplitFor {
  import opened Arith

  /** What one task submitted by `split_for` captures: the first index of its
      batch (`i`), the exclusive bound on visited offsets (`sub_count`) and
      the stride. */
  datatype Batch = Batch(start: nat, subCount: nat, stride: nat)

  function Min(a: nat, b: nat): nat { if a <= b then a else b }

  function Max(a: nat, b: nat): nat { if a >= b then a else b }

  /** `n / d + (n % d ? 1 : 0)`, the ceiling of n / d. */
  function CeilDiv(n: nat, d: nat): (q: nat)
    requires d > 0
    ensures q * d >= n
    ensures q == 0 || (q - 1) * d < n
  {
    n / d + (if n % d != 0 then 1 else 0)
  }

  /** The batch size `max(ceil(count / split), at_least)`. The source divides
      by `split`, so callers must pass a positive one. */
  function BatchSize(count: nat, split: nat, atLeast: nat): (batch: nat)
    requires split > 0
    ensures batch >= atLeast
    ensures count > 0 ==> batch >= 1
  {
    Max(CeilDiv(count, split), atLeast)
  }

  /** The batch size is the least value that is at least `at_least` and that
      lets `split` batches cover `count` indices. */
  lemma BatchSizeIsLeastCover(count: nat, split: nat, atLeast: nat)
    requires split > 0
    ensures var batch := BatchSize(count, split, atLeast);
      && batch * split >= count
      && (batch > atLeast ==> (batch - 1) * split < count)
  {
  }

  /** The task for the batch that starts at index `i`:
      its offsets stop below `stride * min(i + batch, count)`. */
  function MakeBatch(count: nat, stride: nat, batch: nat, i: nat): Batch
  {
    Batch(i, stride * Min(i + batch, count), stride)
  }

  /** The tasks submitted by `for (i = from; i < count; i += batch)`, in
      submission order. */
  function BatchesFrom(count: nat, stride: nat, batch: nat, from: nat): seq<Batch>
    requires batch > 0 || from >= count
    decreases count - from
  {
    if from >= count then []
    else [MakeBatch(count, stride, batch, from)] + BatchesFrom(count, stride, batch, from + batch)
  }

  /** Batch number `b` starts at `from + b * batch`, every start lies below
      `count`, and the starts run until they reach `count`. */
  lemma {:induction false} BatchesFromShape(count: nat, stride: nat, batch: nat, from: nat)
    requires batch > 0 || from >= count
    ensures var bs := BatchesFrom(count, stride, batch, from);
      && (forall b :: 0 <= b < |bs| ==> bs[b] == MakeBatch(count, stride, batch, bs[b].start))
      && (forall b :: 0 <= b < |bs| ==> bs[b].start == from + b * batch < count)
      && from + |bs| * batch >= count
    decreases count - from
  {
    if from < count {
      var rest := BatchesFrom(count, stride, batch, from + batch);
      BatchesFromShape(count, stride, batch, from + batch);
      var bs := [MakeBatch(count, stride, batch, from)] + rest;
      forall b | 0 <= b < |bs|
        ensures bs[b] == MakeBatch(count, stride, batch, bs[b].start)
        ensures bs[b].start == from + b * batch < count
      {
        if b > 0 {
          assert bs[b] == rest[b - 1];
          MulSucc(b - 1, batch);
        }
      }
      MulSucc(|rest|, batch);
    }
  }

  /** The offsets visited by `for (j = from; j < bound; j += stride)`. With a
      zero stride the loop only terminates when it does not start. */
  function Steps(from: nat, bound: nat, stride: nat): (js: seq<nat>)
    requires stride > 0 || from >= bound
    ensures forall k :: 0 <= k < |js| ==> js[k] == from + k * stride && js[k] < bound
    ensures from + |js| * stride >= bound
    decreases bound - from
  {
    if from >= bound then []
    else
      var rest := Steps(from + stride, bound, stride);
      var js := [from] + rest;
      assert forall k :: 0 <= k < |js| ==> js[k] == from + k * stride && js[k] < bound by {
        forall k | 0 <= k < |js|
          ensures js[k] == from + k * stride && js[k] < bound
        {
          if k > 0 {
            assert js[k] == rest[k - 1];
            MulSucc(k - 1, stride);
          }
        }
      }
      MulSucc(|rest|, stride);
      js
  }

  /** A batch whose inner loop terminates. */
  predicate Terminates(b: Batch)
  {
    b.stride > 0 || b.subCount <= b.start * b.stride
  }

  /** The offsets `j` one batch task passes to `fn`, in call order. */
  function Visits(b: Batch): seq<nat>
    requires Terminates(b)
  {
    Steps(b.start * b.stride, b.subCount, b.stride)
  }

  /** The offsets visited when the tasks run one after another in queue order
      (as `assist` runs them when no worker is present). */
  function Trace(bs: seq<Batch>): seq<nat>
    requires forall b :: b in bs ==> Terminates(b)
  {
    if bs == [] then [] else Visits(bs[0]) + Trace(bs[1..])
  }

  /** The reference sequence `lo * stride, (lo + 1) * stride, …` of `n` offsets. */
  function Multiples(lo: nat, n: nat, stride: nat): (ms: seq<nat>)
  {
    seq(n, k requires 0 <= k < n => (lo + k) * stride)
  }

  /** The inner loop of every batch ends, whatever the stride: with stride 0
      both `j = i * stride` and its bound `sub_count` are 0, so it stops at once. */
  lemma MakeBatchTerminates(count: nat, stride: nat, batch: nat, i: nat)
    ensures Terminates(MakeBatch(count, stride, batch, i))
  {
  }

  /** The ceiling of count / d is the only positive q with
      `(q - 1) * d < count <= q * d`. */
  lemma CeilDivUnique(count: nat, d: nat, q: nat)
    requires d > 0 && q > 0 && (q - 1) * d < count <= q * d
    ensures q == CeilDiv(count, d)
  {
    var c := CeilDiv(count, d);
    assert c > 0;
    MulLtCancel(c - 1, q, d);
    MulLtCancel(q - 1, c, d);
  }

  /** The partition submits exactly `ceil(count / batch)` tasks, which is at
      most `split`: `at_least` can only lower the number of tasks. */
  lemma {:induction false} BatchCountBound(count: nat, split: nat, atLeast: nat)
    requires split > 0
    ensures var batch := BatchSize(count, split, atLeast);
      var n := |BatchesFrom(count, 0, batch, 0)|;
      n <= split && (count > 0 ==> n == CeilDiv(count, batch))
  {
    var batch := BatchSize(count, split, atLeast);
    var bs := BatchesFrom(count, 0, batch, 0);
    var n := |bs|;
    BatchesFromShape(count, 0, batch, 0);
    BatchSizeIsLeastCover(count, split, atLeast);
    if count > 0 {
      assert n > 0;
      assert bs[n - 1].start == (n - 1) * batch < count;
      assert (n - 1) * batch < split * batch;
      MulLtCancel(n - 1, split, batch);
      CeilDivUnique(count, batch, n);
    }
  }

  /** The number of submitted tasks does not depend on the stride. */
  lemma BatchCountIndependentOfStride(count: nat, stride: nat, batch: nat, from: nat)
    requires batch > 0 || from >= count
    ensures |BatchesFrom(count, stride, batch, from)| == |BatchesFrom(count, 0, batch, from)|
    decreases count - from
  {
    if from < count {
      BatchCountIndependentOfStride(count, stride, batch, from + batch);
    }
  }

  /** One batch visits exactly the offsets of its indices `[i, min(i + batch, count))`. */
  lemma BatchVisits(lo: nat, hi: nat, stride: nat)
    requires lo <= hi && stride > 0
    ensures Visits(Batch(lo, stride * hi, stride)) == Multiples(lo, hi - lo, stride)
  {
    var js := Visits(Batch(lo, stride * hi, stride));
    var n := |js|;
    assert (lo + n) * stride >= hi * stride;
    MulLeCancel(hi, lo + n, stride);
    if n > 0 {
      assert js[n - 1] == lo * stride + (n - 1) * stride;
      MulSucc(lo + n - 1, stride);
      MulLtCancel(lo + n - 1, hi, stride);
    }
    forall k | 0 <= k < n
      ensures js[k] == (lo + k) * stride
    {
      assert js[k] == lo * stride + k * stride;
    }
  }

  /** Running the batches from index `from` in order visits every offset
      `k * stride` with `from <= k < count` exactly once, in increasing order,
      and nothing else. */
  lemma {:induction false} TraceFrom(count: nat, stride: nat, batch: nat, from: nat)
    requires stride > 0 && batch > 0 && from <= count
    ensures forall b :: b in BatchesFrom(count, stride, batch, from) ==> Terminates(b)
    ensures Trace(BatchesFrom(count, stride, batch, from)) == Multiples(from, count - from, stride)
    decreases count - from
  {
    var bs := BatchesFrom(count, stride, batch, from);
    if from < count {
      var e := Min(from + batch, count);
      var rest := BatchesFrom(count, stride, batch, from + batch);
      assert bs == [MakeBatch(count, stride, batch, from)] + rest;
      assert bs[1..] == rest;
      BatchVisits(from, e, stride);
      if from + batch < count {
        TraceFrom(count, stride, batch, from + batch);
      } else {
        assert rest == [];
      }
      assert Trace(rest) == Multiples(e, count - e, stride);
      assert Trace(bs) == Multiples(from, e - from, stride) + Multiples(e, count - e, stride);
    }
  }

  /** Exact coverage of `split_for`: run in queue order, its tasks call `fn`
      with `j = 0, stride, 2 * stride, …, (count - 1) * stride`, each once. */
  lemma Coverage(count: nat, stride: nat, split: nat, atLeast: nat)
    requires split > 0 && stride > 0
    ensures var bs := BatchesFrom(count, stride, BatchSize(count, split, atLeast), 0);
      (forall b :: b in bs ==> Terminates(b)) && Trace(bs) == Multiples(0, count, stride)
  {
    var batch := BatchSize(count, split, atLeast);
    if count > 0 {
      TraceFrom(count, stride, batch, 0);
    }
  }

  /** An index lies in one block of `batch` consecutive indices only. */
  lemma SameBlock(b: nat, q: nat, batch: nat, k: nat)
    requires b * batch <= k < (b + 1) * batch
    requires q * batch <= k < (q + 1) * batch
    ensures b == q
  {
    MulLtCancel(b, q + 1, batch);
    MulLtCancel(q, b + 1, batch);
  }

  /** `k * stride` is among `Multiples(lo, n, stride)` exactly when `k` lies in `[lo, lo + n)`. */
  lemma MultiplesMember(lo: nat, n: nat, stride: nat, k: nat)
    requires stride > 0
    ensures k * stride in Multiples(lo, n, stride) <==> lo <= k < lo + n
  {
    var ms := Multiples(lo, n, stride);
    if lo <= k < lo + n {
      assert ms[k - lo] == k * stride;
    }
    if k * stride in ms {
      var x :| 0 <= x < n && ms[x] == k * stride;
      MulLeCancel(k, lo + x, stride);
      MulLeCancel(lo + x, k, stride);
    }
  }

  /** For an index below `count`, lying in the block of `b` means `b` is `k / batch`. */
  lemma InBlockIff(b: nat, batch: nat, k: nat, count: nat)
    requires batch > 0 && k < count
    ensures b * batch <= k < Min(b * batch + batch, count) <==> b == k / batch
  {
    if b * batch <= k < Min(b * batch + batch, count) {
      BlockIsQuotient(b, batch, k);
    }
    if b == k / batch {
      DivBlock(k, batch);
    }
  }

  lemma BlockIsQuotient(b: nat, batch: nat, k: nat)
    requires b * batch <= k < b * batch + batch
    ensures b == k / batch
  {
    MulSucc(b, batch);
    DivBlock(k, batch);
    MulSucc(k / batch, batch);
    SameBlock(b, k / batch, batch, k);
  }

  /** Index `k` is visited by the batch that starts at `b * batch` exactly
      when `b` is `k / batch`. */
  lemma BatchMembership(count: nat, stride: nat, batch: nat, b: nat, k: nat)
    requires stride > 0 && batch > 0 && k < count && b * batch < count
    ensures Terminates(MakeBatch(count, stride, batch, b * batch))
    ensures k * stride in Visits(MakeBatch(count, stride, batch, b * batch)) <==> b == k / batch
  {
    var lo := b * batch;
    var hi := Min(lo + batch, count);
    assert MakeBatch(count, stride, batch, lo) == Batch(lo, stride * hi, stride);
    BatchVisits(lo, hi, stride);
    MultiplesMember(lo, hi - lo, stride, k);
    InBlockIff(b, batch, k, count);
  }

  /** Whatever the worker that runs it, every index `k < count` is handled by
      exactly one batch task of `split_for`: the one numbered `k / batch`. */
  lemma {:induction false} ExactlyOneBatch(count: nat, stride: nat, split: nat, atLeast: nat, k: nat)
    requires split > 0 && stride > 0 && k < count
    ensures var bs := BatchesFrom(count, stride, BatchSize(count, split, atLeast), 0);
      && (forall b :: b in bs ==> Terminates(b))
      && (forall b :: 0 <= b < |bs| ==> (k * stride in Visits(bs[b]) <==> b == k / BatchSize(count, split, atLeast)))
      && k / BatchSize(count, split, atLeast) < |bs|
  {
    var batch := BatchSize(count, split, atLeast);
    var bs := BatchesFrom(count, stride, batch, 0);
    BatchesFromShape(count, stride, batch, 0);
    forall b | 0 <= b < |bs|
      ensures Terminates(bs[b])
      ensures k * stride in Visits(bs[b]) <==> b == k / batch
    {
      assert bs[b] == MakeBatch(count, stride, batch, b * batch);
      BatchMembership(count, stride, batch, b, k);
    }
    QuotientBelow(k, batch, count, |bs|);
  }

  /** With `n` blocks of `batch` covering `count`, the block of any index
      below `count` is among them. */
  lemma QuotientBelow(k: nat, batch: nat, count: nat, n: nat)
    requires batch > 0 && k < count <= n * batch
    ensures k / batch < n
  {
    DivBlock(k, batch);
    MulLtCancel(k / batch, n, batch);
  }

  /** Every batch but the last covers exactly `batch` indices; the last one
      ends at `count`. */
  lemma {:induction false} OnlyLastBatchShorter(count: nat, stride: nat, batch: nat)
    requires batch > 0
    ensures var bs := BatchesFrom(count, stride, batch, 0);
      && (forall b :: 0 <= b < |bs| - 1 ==> bs[b].subCount == stride * (bs[b].start + batch))
      && (|bs| > 0 ==> bs[|bs| - 1].subCount == stride * count)
  {
    var bs := BatchesFrom(count, stride, batch, 0);
    BatchesFromShape(count, stride, batch, 0);
    forall b | 0 <= b < |bs| - 1
      ensures bs[b].subCount == stride * (bs[b].start + batch)
    {
      MulSucc(b, batch);
      assert bs[b].start + batch == bs[b + 1].start;
    }
    if |bs| > 0 {
      MulSucc(|bs| - 1, batch);
    }
  }

  /** Within one batch the offsets are visited in strictly increasing order. */
  lemma VisitsIncreasing(b: Batch, k1: nat, k2: nat)
    requires Terminates(b) && b.stride > 0 && k1 < k2 < |Visits(b)|
    ensures Visits(b)[k1] < Visits(b)[k2]
  {
    MulMono(k1 + 1, k2, b.stride);
    MulSucc(k1, b.stride);
  }

  /** With a zero stride every batch is empty: `fn` is never called. */
  lemma {:induction false} ZeroStrideVisitsNothing(count: nat, batch: nat, from: nat)
    requires batch > 0 || from >= count
    ensures forall b :: b in BatchesFrom(count, 0, batch, from) ==> Terminates(b)
    ensures Trace(BatchesFrom(count, 0, batch, from)) == []
    decreases count - from
  {
    if from < count {
      var bs := BatchesFrom(count, 0, batch, from);
      ZeroStrideVisitsNothing(count, batch, from + batch);
      assert bs[1..] == BatchesFrom(count, 0, batch, from + batch);
    }
  }

  /** The loop of `split_for` that submits one task per batch. */
  method SplitFor(count: nat, stride: nat, split: nat, atLeast: nat) returns (batches: seq<Batch>)
    requires split > 0
    ensures count == 0 ==> batches == []
    ensures |batches| <= split
    ensures forall b :: 0 <= b < |batches| ==> Terminates(batches[b])
    ensures batches == BatchesFrom(count, stride, BatchSize(count, split, atLeast), 0)
  {
    var batch := BatchSize(count, split, atLeast);
    batches := [];
    var i: nat := 0;
    while i < count
      invariant batches + BatchesFrom(count, stride, batch, i) == BatchesFrom(count, stride, batch, 0)
      invariant forall b :: 0 <= b < |batches| ==> Terminates(batches[b])
      decreases count - i
    {
      var subCount := stride * Min(i + batch, count);
      assert BatchesFrom(count, stride, batch, i)
        == [Batch(i, subCount, stride)] + BatchesFrom(count, stride, batch, i + batch);
      batches := batches + [Batch(i, subCount, stride)];
      i := i + batch;
    }
    BatchCountBound(count, split, atLeast);
    BatchCountIndependentOfStride(count, stride, batch, 0);
  }
}

=== FILE: thread_pool.dfy ===
/**
 * The worker pool `ThreadPool` as a sequential transition system.
 *
 * Every step is one atomic action of one thread: a submitter's `arun`, one
 * turn of a worker's loop, one step of a thread inside `assist`, or one half
 * of `join`.
 * Tasks are opaque and numbered by submission; what a task computes, and the
 * futures through which its result travels, are not modelled: a task is
 * "resolved" once some thread has finished running it.
 */
module ThreadPool {
  import opened Wrappers

  /** A task handed to `arun`, identified by its submission number. */
  type TaskId = nat

  /** Where a thread stands in the loop of its body: a worker's
      `while (!join_)` loop, or the `while (true)` loop of `assist`. */
  datatype Phase =
    | AtLoopHead            // about to test `while (!join_)`, or in `assist` `queue_.empty()`
    | Waiting               // past the `while (!join_)` test, until it leaves `wakeup_.wait`
    | Running(task: TaskId) // executing `f(thread_id)`, counted in `busy_`
    | Exited                // returned from its body

  /** A worker thread and the `thread_id` it was created with; also a thread
      inside `assist` and the `thread_id` it fixed on entry. */
  datatype Worker = Worker(id: nat, phase: Phase)

  /** A task that has finished running, and the thread id it was given. */
  datatype Execution = Execution(task: TaskId, threadId: nat)

  /** The pool: `join_`, `busy_`, `queue_` and `workers_`, plus the history
      the properties speak about: how many tasks were submitted, which of
      them were enqueued, which were taken from the queue (in order) and
      which have finished. `assisting` holds the threads inside `assist`,
      each with the id it fixed on entry and the task it is running, if any. */
  datatype Pool = Pool(
    joining: bool,
    busy: nat,
    queue: seq<TaskId>,
    workers: seq<Worker>,
    submitted: nat,
    accepted: seq<TaskId>,
    dequeued: seq<TaskId>,
    executions: seq<Execution>,
    assisting: seq<Worker>)

  /** A pool before any worker was spawned or any task submitted. */
  const Empty := Pool(false, 0, [], [], 0, [], [], [], [])

  /** The task a worker is running, if any. */
  function TasksOf(w: Worker): multiset<TaskId>
  {
    if w.phase.Running? then multiset{w.phase.task} else multiset{}
  }

  /** The tasks the workers are running. */
  function RunningTasks(ws: seq<Worker>): multiset<TaskId>
  {
    if ws == [] then multiset{} else TasksOf(ws[0]) + RunningTasks(ws[1..])
  }

  /** The finished tasks, in completion order. */
  function Completed(es: seq<Execution>): seq<TaskId>
  {
    seq(|es|, i requires 0 <= i < |es| => es[i].task)
  }

  /** A task's future is resolved once the task has run to its end. */
  predicate Resolved(p: Pool, t: TaskId)
  {
    t in Completed(p.executions)
  }

  predicate Increasing(s: seq<TaskId>)
  {
    forall i, j :: 0 <= i < j < |s| ==> s[i] < s[j]
  }

  predicate AllExited(ws: seq<Worker>)
  {
    forall i :: 0 <= i < |ws| ==> ws[i].phase == Exited
  }

  /** The tasks being run, by workers and by threads inside `assist`. */
  function InFlight(p: Pool): multiset<TaskId>
  {
    RunningTasks(p.workers) + RunningTasks(p.assisting)
  }

  /** What holds in every state the pool can reach: worker ids are their
      positions, the queue is what was enqueued and not yet taken (so tasks
      leave it in submission order), `busy_` counts the tasks being run, and
      every task taken from the queue is either finished or being run, once. */
  predicate Valid(p: Pool)
  {
    && (forall i :: 0 <= i < |p.workers| ==> p.workers[i].id == i)
    && p.accepted == p.dequeued + p.queue
    && Increasing(p.accepted)
    && (forall i :: 0 <= i < |p.accepted| ==> p.accepted[i] < p.submitted)
    && p.busy == |InFlight(p)|
    && multiset(p.dequeued) == multiset(Completed(p.executions)) + InFlight(p)
  }

  /** `worker_count()`: the number of worker threads. */
  function WorkerCount(p: Pool): nat
  {
    |p.workers|
  }

  /** `arun`: the task is numbered by submission; under the queue lock it is
      appended to the queue unless `join_` is set, in which case it is
      dropped and its future is never resolved. */
  function Arun(p: Pool): (r: (Pool, TaskId))
    ensures r.1 == p.submitted && r.0.submitted == p.submitted + 1
    ensures !p.joining ==> r.0.queue == p.queue + [r.1] && r.0.accepted == p.accepted + [r.1]
    ensures p.joining ==> r.0.queue == p.queue && r.0.accepted == p.accepted
    ensures r.0 == p.(submitted := r.0.submitted, queue := r.0.queue, accepted := r.0.accepted)
  {
    var t := p.submitted;
    if p.joining then (p.(submitted := t + 1), t)
    else (p.(submitted := t + 1, queue := p.queue + [t], accepted := p.accepted + [t]), t)
  }

  /** One round of `spawn`: a thread whose id is the current worker count. */
  function SpawnOne(p: Pool): (r: Pool)
    ensures WorkerCount(r) == WorkerCount(p) + 1
    ensures r.workers[..WorkerCount(p)] == p.workers
    ensures r.workers[WorkerCount(p)] == Worker(WorkerCount(p), AtLoopHead)
    ensures r == p.(workers := r.workers)
  {
    p.(workers := p.workers + [Worker(|p.workers|, AtLoopHead)])
  }

  /** Worker `w` tests `while (!join_)`: it leaves its body whenever `join_`
      is set, whether or not tasks are still queued. */
  function LoopHead(p: Pool, w: nat): (r: Pool)
    requires w < |p.workers| && p.workers[w].phase == AtLoopHead
    ensures r.workers == p.workers[w := Worker(p.workers[w].id, if p.joining then Exited else Waiting)]
    ensures r == p.(workers := r.workers)
  {
    p.(workers := p.workers[w := p.workers[w].(phase := if p.joining then Exited else Waiting)])
  }

  /** The wait predicate of a worker: `join_ || !queue_.empty()`. */
  predicate CanWake(p: Pool, w: nat)
  {
    w < |p.workers| && p.workers[w].phase == Waiting && (p.joining || p.queue != [])
  }

  /** Worker `w` leaves `wakeup_.wait`: it exits when `join_` is set and the
      queue is empty; otherwise it increments `busy_` and takes the front
      task. */
  function Wake(p: Pool, w: nat): (r: Pool)
    requires CanWake(p, w)
    ensures p.joining && p.queue == [] ==>
      r == p.(workers := p.workers[w := Worker(p.workers[w].id, Exited)])
    ensures p.queue != [] ==>
      && r.queue == p.queue[1..]
      && r.dequeued == p.dequeued + [p.queue[0]]
      && r.busy == p.busy + 1
      && r.workers == p.workers[w := Worker(p.workers[w].id, Running(p.queue[0]))]
    ensures r == p.(busy := r.busy, queue := r.queue, dequeued := r.dequeued, workers := r.workers)
  {
    if p.joining && p.queue == [] then
      p.(workers := p.workers[w := p.workers[w].(phase := Exited)])
    else
      var t := p.queue[0];
      p.(busy := p.busy + 1,
         queue := p.queue[1..],
         dequeued := p.dequeued + [t],
         workers := p.workers[w := p.workers[w].(phase := Running(t))])
  }

  /** Worker `w` returns from its task: `busy_` is decremented and the worker
      goes back to its loop head. */
  function Finish(p: Pool, w: nat): (r: Pool)
    requires w < |p.workers| && p.workers[w].phase.Running? && p.busy > 0
    ensures r.busy == p.busy - 1
    ensures r.executions == p.executions + [Execution(p.workers[w].phase.task, p.workers[w].id)]
    ensures r.workers == p.workers[w := Worker(p.workers[w].id, AtLoopHead)]
    ensures r == p.(busy := r.busy, executions := r.executions, workers := r.workers)
  {
    var t := p.workers[w].phase.task;
    p.(busy := p.busy - 1,
       executions := p.executions + [Execution(t, p.workers[w].id)],
       workers := p.workers[w := p.workers[w].(phase := AtLoopHead)])
  }

  /** The id an `assist` call fixes on entry: the worker count at that moment. */
  function AssistId(p: Pool): nat
  {
    |p.workers|
  }

  /** Entering `assist`: the calling thread reads `workers_.size()` once and
      runs every task of this call under that id. */
  function AssistEnter(p: Pool): (r: Pool)
    ensures r.assisting == p.assisting + [Worker(WorkerCount(p), AtLoopHead)]
    ensures r == p.(assisting := r.assisting)
  {
    p.(assisting := p.assisting + [Worker(AssistId(p), AtLoopHead)])
  }

  /** The `assist` call `s`, at the head of its loop, finds the queue not
      empty: under the lock it increments `busy_` and pops the front task,
      which it then runs outside the lock. */
  function AssistPop(p: Pool, s: nat): (r: Pool)
    requires s < |p.assisting| && p.assisting[s].phase == AtLoopHead && p.queue != []
    ensures r.queue == p.queue[1..] && r.dequeued == p.dequeued + [p.queue[0]]
    ensures r.busy == p.busy + 1
    ensures r.assisting == p.assisting[s := Worker(p.assisting[s].id, Running(p.queue[0]))]
    ensures r == p.(busy := r.busy, queue := r.queue, dequeued := r.dequeued, assisting := r.assisting)
  {
    var t := p.queue[0];
    p.(busy := p.busy + 1,
       queue := p.queue[1..],
       dequeued := p.dequeued + [t],
       assisting := p.assisting[s := p.assisting[s].(phase := Running(t))])
  }

  /** The `assist` call `s` returns from the task it ran under the id it
      fixed on entry, decrements `busy_` and goes back to the head of its
      loop. */
  function AssistFinish(p: Pool, s: nat): (r: Pool)
    requires s < |p.assisting| && p.assisting[s].phase.Running? && p.busy > 0
    ensures r.busy == p.busy - 1
    ensures r.executions == p.executions + [Execution(p.assisting[s].phase.task, p.assisting[s].id)]
    ensures r.assisting == p.assisting[s := Worker(p.assisting[s].id, AtLoopHead)]
    ensures r == p.(busy := r.busy, executions := r.executions, assisting := r.assisting)
  {
    var t := p.assisting[s].phase.task;
    p.(busy := p.busy - 1,
       executions := p.executions + [Execution(t, p.assisting[s].id)],
       assisting := p.assisting[s := p.assisting[s].(phase := AtLoopHead)])
  }

  /** The `assist` call `s`, at the head of its loop, finds the queue empty
      and returns; the other calls in progress are left as they are. */
  function AssistLeave(p: Pool, s: nat): (r: Pool)
    requires s < |p.assisting| && p.assisting[s].phase == AtLoopHead && p.queue == []
    ensures |r.assisting| == |p.assisting| - 1
    ensures multiset(r.assisting) + multiset{p.assisting[s]} == multiset(p.assisting)
    ensures r == p.(assisting := r.assisting)
  {
    assert p.assisting == p.assisting[..s] + [p.assisting[s]] + p.assisting[s + 1..];
    p.(assisting := p.assisting[..s] + p.assisting[s + 1..])
  }

  /** The first half of `join`: set `join_` and wake every worker. */
  function JoinBegin(p: Pool): (r: Pool)
    ensures r.joining
    ensures r == p.(joining := r.joining)
  {
    p.(joining := true)
  }

  /** The second half of `join`, once every worker thread has returned:
      clear the workers and reset `join_`. The queue is left as it is. */
  function JoinEnd(p: Pool): (r: Pool)
    requires AllExited(p.workers)
    ensures WorkerCount(r) == 0 && !r.joining
    ensures r == p.(workers := r.workers, joining := r.joining)
  {
    p.(workers := [], joining := false)
  }

  /** `wait_completion` returns only in a state where this holds. */
  predicate AtRest(p: Pool)
  {
    p.queue == [] && p.busy == 0
  }

  /** The atomic actions of the threads that share a pool. */
  datatype Event =
    | Submit
    | Spawn1
    | Head(w: nat)
    | WakeUp(w: nat)
    | Done(w: nat)
    | AssistBegin
    | AssistTake(s: nat)
    | AssistDone(s: nat)
    | AssistEnd(s: nat)
    | BeginJoin
    | EndJoin

  /** The state after an action, or None when the action cannot happen now. */
  function Next(p: Pool, e: Event): Option<Pool>
  {
    match e
    case Submit => Some(Arun(p).0)
    case Spawn1 => Some(SpawnOne(p))
    case Head(w) =>
      if w < |p.workers| && p.workers[w].phase == AtLoopHead then Some(LoopHead(p, w)) else None
    case WakeUp(w) => if CanWake(p, w) then Some(Wake(p, w)) else None
    case Done(w) =>
      if w < |p.workers| && p.workers[w].phase.Running? && p.busy > 0 then Some(Finish(p, w)) else None
    case AssistBegin => Some(AssistEnter(p))
    case AssistTake(s) =>
      if s < |p.assisting| && p.assisting[s].phase == AtLoopHead && p.queue != [] then Some(AssistPop(p, s)) else None
    case AssistDone(s) =>
      if s < |p.assisting| && p.assisting[s].phase.Running? && p.busy > 0 then Some(AssistFinish(p, s)) else None
    case AssistEnd(s) =>
      if s < |p.assisting| && p.assisting[s].phase == AtLoopHead && p.queue == [] then Some(AssistLeave(p, s)) else None
    case BeginJoin => Some(JoinBegin(p))
    case EndJoin => if AllExited(p.workers) then Some(JoinEnd(p)) else None
  }

  /** The state after a run of actions, or None when one of them cannot happen. */
  function Exec(p: Pool, es: seq<Event>): Option<Pool>
    decreases |es|
  {
    if es == [] then Some(p)
    else match Next(p, es[0])
      case None => None
      case Some(q) => Exec(q, es[1..])
  }

  // ---------------------------------------------------------------------
  // The running-task count under single-worker updates.

  lemma Shuffle(a: multiset<TaskId>, b: multiset<TaskId>, c: multiset<TaskId>,
                d: multiset<TaskId>, e: multiset<TaskId>)
    requires a + c == d + e
    ensures b + a + c == b + d + e
  {
    assert b + a + c == b + (a + c);
    assert b + d + e == b + (d + e);
  }

  lemma AddNothing(m: multiset<TaskId>)
    ensures m + multiset{} == m
  {
  }

  /** Changing a worker that runs nothing into one that runs nothing leaves
      the running tasks as they were. */
  lemma RunningTasksIdleUpdate(ws: seq<Worker>, w: nat, x: Worker)
    requires w < |ws| && !ws[w].phase.Running? && !x.phase.Running?
    ensures RunningTasks(ws[w := x]) == RunningTasks(ws)
  {
    RunningTasksUpdate(ws, w, x);
    AddNothing(RunningTasks(ws[w := x]));
    AddNothing(RunningTasks(ws));
  }

  lemma {:induction false} RunningTasksUpdate(ws: seq<Worker>, w: nat, x: Worker)
    requires w < |ws|
    ensures RunningTasks(ws[w := x]) + TasksOf(ws[w]) == RunningTasks(ws) + TasksOf(x)
    decreases |ws|
  {
    if w > 0 {
      var tail := ws[1..];
      assert ws[w := x][1..] == tail[w - 1 := x];
      RunningTasksUpdate(tail, w - 1, x);
      assert tail[w - 1] == ws[w];
      assert RunningTasks(ws[w := x]) == TasksOf(ws[0]) + RunningTasks(tail[w - 1 := x]);
      Shuffle(RunningTasks(tail[w - 1 := x]), TasksOf(ws[0]), TasksOf(ws[w]), RunningTasks(tail), TasksOf(x));
    } else {
      assert ws[w := x][1..] == ws[1..];
    }
  }

  lemma {:induction false} RunningTasksAppend(ws: seq<Worker>, x: Worker)
    ensures RunningTasks(ws + [x]) == RunningTasks(ws) + TasksOf(x)
    decreases |ws|
  {
    if ws != [] {
      assert (ws + [x])[1..] == ws[1..] + [x];
      RunningTasksAppend(ws[1..], x);
      assert TasksOf(ws[0]) + (RunningTasks(ws[1..]) + TasksOf(x))
        == TasksOf(ws[0]) + RunningTasks(ws[1..]) + TasksOf(x);
    }
  }

  lemma {:induction false} RunningTasksConcat(a: seq<Worker>, b: seq<Worker>)
    ensures RunningTasks(a + b) == RunningTasks(a) + RunningTasks(b)
    decreases |a|
  {
    if a == [] {
      assert a + b == b;
    } else {
      assert (a + b)[0] == a[0] && (a + b)[1..] == a[1..] + b;
      RunningTasksConcat(a[1..], b);
      assert TasksOf(a[0]) + (RunningTasks(a[1..]) + RunningTasks(b))
        == TasksOf(a[0]) + RunningTasks(a[1..]) + RunningTasks(b);
    }
  }

  /** Removing a thread that runs nothing leaves the running tasks as they were. */
  lemma RunningTasksRemoveIdle(ws: seq<Worker>, s: nat)
    requires s < |ws| && !ws[s].phase.Running?
    ensures RunningTasks(ws[..s] + ws[s + 1..]) == RunningTasks(ws)
  {
    assert ws == ws[..s] + [ws[s]] + ws[s + 1..];
    RunningTasksConcat(ws[..s] + [ws[s]], ws[s + 1..]);
    RunningTasksConcat(ws[..s], [ws[s]]);
    RunningTasksConcat(ws[..s], ws[s + 1..]);
    assert RunningTasks([ws[s]]) == TasksOf(ws[s]) + RunningTasks([]);
    AddNothing(RunningTasks(ws[..s]));
  }

  lemma {:induction false} AllExitedNoneRunning(ws: seq<Worker>)
    requires AllExited(ws)
    ensures RunningTasks(ws) == multiset{}
    decreases |ws|
  {
    if ws != [] {
      AllExitedNoneRunning(ws[1..]);
    }
  }

  /** A task a worker is running is counted among the running tasks. */
  lemma {:induction false} RunningTaskCounted(ws: seq<Worker>, w: nat)
    requires w < |ws| && ws[w].phase.Running?
    ensures ws[w].phase.task in RunningTasks(ws)
    decreases |ws|
  {
    if w > 0 {
      RunningTaskCounted(ws[1..], w - 1);
    }
  }

  /** A worker running a task is counted in `busy_`. */
  lemma RunningWorkerIsBusy(p: Pool, w: nat)
    requires Valid(p) && w < |p.workers| && p.workers[w].phase.Running?
    ensures p.busy > 0
  {
    RunningTaskCounted(p.workers, w);
    assert p.workers[w].phase.task in InFlight(p);
  }

  lemma CompletedAppend(es: seq<Execution>, e: Execution)
    ensures Completed(es + [e]) == Completed(es) + [e.task]
  {
  }

  // ---------------------------------------------------------------------
  // The invariant holds initially and is kept by every action.

  lemma EmptyIsValid()
    ensures Valid(Empty)
  {
  }

  lemma ArunKeepsValid(p: Pool)
    requires Valid(p)
    ensures Valid(Arun(p).0)
  {
  }

  lemma SpawnOneKeepsValid(p: Pool)
    requires Valid(p)
    ensures Valid(SpawnOne(p))
  {
    RunningTasksAppend(p.workers, Worker(|p.workers|, AtLoopHead));
    AddNothing(RunningTasks(p.workers));
  }

  lemma LoopHeadKeepsValid(p: Pool, w: nat)
    requires Valid(p) && w < |p.workers| && p.workers[w].phase == AtLoopHead
    ensures Valid(LoopHead(p, w))
  {
    var r := LoopHead(p, w);
    RunningTasksIdleUpdate(p.workers, w, r.workers[w]);
  }

  lemma WakeKeepsValid(p: Pool, w: nat)
    requires Valid(p) && CanWake(p, w)
    ensures Valid(Wake(p, w))
  {
    if p.queue != [] {
      TakeKeepsValid(p, w);
    } else {
      RunningTasksIdleUpdate(p.workers, w, Wake(p, w).workers[w]);
    }
  }

  /** Taking the front task keeps the invariant: the task moves from the
      queue to the tasks being run. */
  lemma TakeKeepsValid(p: Pool, w: nat)
    requires Valid(p) && CanWake(p, w) && p.queue != []
    ensures Valid(Wake(p, w))
  {
    var r := Wake(p, w);
    assert RunningTasks(r.workers) == RunningTasks(p.workers) + multiset{p.queue[0]} by {
      RunningTasksUpdate(p.workers, w, r.workers[w]);
      AddNothing(RunningTasks(r.workers));
    }
    FrontTaskTakenKeepsValid(p, r);
  }

  /** Whichever thread pops the front task, the invariant is kept when the
      task moves from the queue to the tasks being run and `busy_` goes up. */
  lemma FrontTaskTakenKeepsValid(p: Pool, r: Pool)
    requires Valid(p) && p.queue != []
    requires r.queue == p.queue[1..] && r.dequeued == p.dequeued + [p.queue[0]] && r.busy == p.busy + 1
    requires InFlight(r) == InFlight(p) + multiset{p.queue[0]}
    requires r.accepted == p.accepted && r.submitted == p.submitted && r.executions == p.executions
    requires forall i :: 0 <= i < |r.workers| ==> r.workers[i].id == i
    ensures Valid(r)
  {
    var t := p.queue[0];
    assert r.dequeued + r.queue == p.dequeued + p.queue by {
      assert p.queue == [t] + p.queue[1..];
    }
    var done := multiset(Completed(p.executions));
    calc {
      multiset(r.dequeued);
      multiset(p.dequeued) + multiset{t};
      done + InFlight(p) + multiset{t};
      done + (InFlight(p) + multiset{t});
    }
  }

  lemma FinishKeepsValid(p: Pool, w: nat)
    requires Valid(p) && w < |p.workers| && p.workers[w].phase.Running? && p.busy > 0
    ensures Valid(Finish(p, w))
  {
    var r := Finish(p, w);
    var t := p.workers[w].phase.task;
    RunningTasksUpdate(p.workers, w, r.workers[w]);
    AddNothing(RunningTasks(p.workers));
    assert RunningTasks(p.workers) == RunningTasks(r.workers) + multiset{t};
    TaskFinishedKeepsValid(p, r, Execution(t, p.workers[w].id));
  }

  /** Whichever thread finishes a task, the invariant is kept when the task
      moves from the tasks being run to the finished ones and `busy_` goes
      down. */
  lemma TaskFinishedKeepsValid(p: Pool, r: Pool, e: Execution)
    requires Valid(p) && p.busy > 0
    requires r.executions == p.executions + [e] && r.busy == p.busy - 1
    requires InFlight(p) == InFlight(r) + multiset{e.task}
    requires r.queue == p.queue && r.dequeued == p.dequeued
    requires r.accepted == p.accepted && r.submitted == p.submitted
    requires forall i :: 0 <= i < |r.workers| ==> r.workers[i].id == i
    ensures Valid(r)
  {
    CompletedAppend(p.executions, e);
    var done := multiset(Completed(p.executions));
    calc {
      multiset(r.dequeued);
      done + InFlight(p);
      done + (InFlight(r) + multiset{e.task});
      done + multiset{e.task} + InFlight(r);
      multiset(Completed(r.executions)) + InFlight(r);
    }
  }

  lemma AssistEnterKeepsValid(p: Pool)
    requires Valid(p)
    ensures Valid(AssistEnter(p))
  {
    RunningTasksAppend(p.assisting, Worker(AssistId(p), AtLoopHead));
    AddNothing(RunningTasks(p.assisting));
  }

  /** An `assist` call popping the front task keeps the invariant, as a
      worker taking it does. */
  lemma AssistPopKeepsValid(p: Pool, s: nat)
    requires Valid(p) && s < |p.assisting| && p.assisting[s].phase == AtLoopHead && p.queue != []
    ensures Valid(AssistPop(p, s))
  {
    var r := AssistPop(p, s);
    assert RunningTasks(r.assisting) == RunningTasks(p.assisting) + multiset{p.queue[0]} by {
      RunningTasksUpdate(p.assisting, s, r.assisting[s]);
      AddNothing(RunningTasks(r.assisting));
    }
    FrontTaskTakenKeepsValid(p, r);
  }

  lemma AssistFinishKeepsValid(p: Pool, s: nat)
    requires Valid(p) && s < |p.assisting| && p.assisting[s].phase.Running? && p.busy > 0
    ensures Valid(AssistFinish(p, s))
  {
    var r := AssistFinish(p, s);
    var t := p.assisting[s].phase.task;
    RunningTasksUpdate(p.assisting, s, r.assisting[s]);
    AddNothing(RunningTasks(p.assisting));
    assert RunningTasks(p.assisting) == RunningTasks(r.assisting) + multiset{t};
    TaskFinishedKeepsValid(p, r, Execution(t, p.assisting[s].id));
  }

  lemma AssistLeaveKeepsValid(p: Pool, s: nat)
    requires Valid(p) && s < |p.assisting| && p.assisting[s].phase == AtLoopHead && p.queue == []
    ensures Valid(AssistLeave(p, s))
  {
    RunningTasksRemoveIdle(p.assisting, s);
  }

  lemma JoinEndKeepsValid(p: Pool)
    requires Valid(p) && AllExited(p.workers)
    ensures Valid(JoinEnd(p))
  {
    AllExitedNoneRunning(p.workers);
    assert RunningTasks([]) == multiset{};
  }

  /** Every action that can happen in a valid state leads to a valid state. */
  lemma NextKeepsValid(p: Pool, e: Event)
    requires Valid(p) && Next(p, e).Some?
    ensures Valid(Next(p, e).value)
  {
    match e
    case Submit => ArunKeepsValid(p);
    case Spawn1 => SpawnOneKeepsValid(p);
    case Head(w) => LoopHeadKeepsValid(p, w);
    case WakeUp(w) => WakeKeepsValid(p, w);
    case Done(w) => FinishKeepsValid(p, w);
    case AssistBegin => AssistEnterKeepsValid(p);
    case AssistTake(s) => AssistPopKeepsValid(p, s);
    case AssistDone(s) => AssistFinishKeepsValid(p, s);
    case AssistEnd(s) => AssistLeaveKeepsValid(p, s);
    case BeginJoin =>
    case EndJoin => JoinEndKeepsValid(p);
  }

  /** Every state reachable from a valid one is valid. */
  lemma {:induction false} ExecKeepsValid(p: Pool, es: seq<Event>)
    requires Valid(p) && Exec(p, es).Some?
    ensures Valid(Exec(p, es).value)
    decreases |es|
  {
    if es != [] {
      NextKeepsValid(p, es[0]);
      ExecKeepsValid(Next(p, es[0]).value, es[1..]);
    }
  }

  // ---------------------------------------------------------------------
  // Properties of single actions.

  /** A worker that takes a task and finishes it leaves `busy_` where it was,
      and the task it ran is the one at the front of the queue. */
  lemma TakeThenFinishRestoresBusy(p: Pool, w: nat)
    requires Valid(p) && CanWake(p, w) && p.queue != []
    ensures var r := Finish(Wake(p, w), w);
      && r.busy == p.busy
      && r.queue == p.queue[1..]
      && Completed(r.executions) == Completed(p.executions) + [p.queue[0]]
  {
    var r := Finish(Wake(p, w), w);
    CompletedAppend(p.executions, Execution(p.queue[0], p.workers[w].id));
  }

  /** One round of an `assist` call: it pops the front task and finishes it,
      which leaves `busy_` and the call as they were and records the task as
      run under the call's id. */
  lemma AssistPopThenFinish(p: Pool, s: nat)
    requires Valid(p) && s < |p.assisting| && p.assisting[s].phase == AtLoopHead && p.queue != []
    ensures var r := AssistFinish(AssistPop(p, s), s);
      && Valid(r)
      && r.queue == p.queue[1..]
      && r.dequeued == p.dequeued + [p.queue[0]]
      && r.executions == p.executions + [Execution(p.queue[0], p.assisting[s].id)]
      && r == p.(queue := r.queue, dequeued := r.dequeued, executions := r.executions)
  {
    AssistPopKeepsValid(p, s);
    var q := AssistPop(p, s);
    AssistFinishKeepsValid(q, s);
    assert q.assisting[s := Worker(p.assisting[s].id, AtLoopHead)] == p.assisting;
  }

  /** A worker at its loop head leaves the pool when `join_` is set even if
      tasks are still queued: `join` does not drain the queue. */
  lemma ExitAtLoopHeadWithQueuedTasks(p: Pool, w: nat)
    requires w < |p.workers| && p.workers[w].phase == AtLoopHead && p.joining
    ensures LoopHead(p, w).workers[w].phase == Exited
    ensures LoopHead(p, w).queue == p.queue
  {
  }

  /** A waiting worker exits exactly when `join_` is set and the queue is empty. */
  lemma WakeExitsIff(p: Pool, w: nat)
    requires CanWake(p, w)
    ensures Wake(p, w).workers[w].phase == Exited <==> p.joining && p.queue == []
  {
  }

  /** On entry, the id an `assist` call fixes is not the id of any worker
      thread existing at that moment. */
  lemma AssistIdIsFresh(p: Pool)
    requires Valid(p)
    ensures var r := AssistEnter(p);
      forall i :: 0 <= i < |p.workers| ==> p.workers[i].id != r.assisting[|r.assisting| - 1].id
  {
  }

  /** Two submissions to a fresh pool queue the tasks 0 and 1. */
  lemma TwoSubmitted()
    ensures Next(Empty, Submit) == Some(Pool(false, 0, [0], [], 1, [0], [], [], []))
    ensures Next(Pool(false, 0, [0], [], 1, [0], [], [], []), Submit)
      == Some(Pool(false, 0, [0, 1], [], 2, [0, 1], [], [], []))
  {
    var a1 := Arun(Empty).0;
    assert a1.queue == [0] && a1 == Pool(false, 0, [0], [], 1, [0], [], [], []);
    var a2 := Arun(a1).0;
    assert a2.queue == [0, 1] && a2 == Pool(false, 0, [0, 1], [], 2, [0, 1], [], [], []);
  }

  /** The id stays fixed while `assist` runs, so a worker spawned meanwhile
      gets the same id: here the new worker and both tasks run by `assist`
      all have id 0. */
  lemma SpawnDuringAssistSharesId()
    ensures var r := Exec(Empty, [Submit, Submit, AssistBegin, AssistTake(0), AssistDone(0),
                                  Spawn1, AssistTake(0), AssistDone(0)]);
      && r.Some?
      && r.value.workers == [Worker(0, AtLoopHead)]
      && r.value.executions == [Execution(0, 0), Execution(1, 0)]
  {
    var p1 := Pool(false, 0, [0], [], 1, [0], [], [], []);
    var p2 := Pool(false, 0, [0, 1], [], 2, [0, 1], [], [], []);
    TwoSubmitted();
    AssistRunsOneThenSpawn();
    assert Exec(p1, [Submit, AssistBegin, AssistTake(0), AssistDone(0), Spawn1, AssistTake(0), AssistDone(0)])
      == Exec(p2, [AssistBegin, AssistTake(0), AssistDone(0), Spawn1, AssistTake(0), AssistDone(0)]);
  }

  /** An `assist` call entered with two tasks queued runs the first, a
      worker is spawned, and the call runs the second. */
  lemma AssistRunsOneThenSpawn()
    ensures Exec(Pool(false, 0, [0, 1], [], 2, [0, 1], [], [], []),
                 [AssistBegin, AssistTake(0), AssistDone(0), Spawn1, AssistTake(0), AssistDone(0)])
      == Some(Pool(false, 0, [], [Worker(0, AtLoopHead)], 2, [0, 1], [0, 1], [Execution(0, 0), Execution(1, 0)],
                   [Worker(0, AtLoopHead)]))
  {
    var idle := Worker(0, AtLoopHead);
    var p2 := Pool(false, 0, [0, 1], [], 2, [0, 1], [], [], []);
    var p3 := p2.(assisting := [idle]);
    var p4 := Pool(false, 1, [1], [], 2, [0, 1], [0], [], [Worker(0, Running(0))]);
    var p5 := Pool(false, 0, [1], [], 2, [0, 1], [0], [Execution(0, 0)], [idle]);
    var a3 := AssistEnter(p2);
    assert a3.assisting == [idle] && a3 == p3;
    var a4 := AssistPop(p3, 0);
    assert a4.assisting == p4.assisting && a4 == p4;
    var a5 := AssistFinish(p4, 0);
    assert a5.executions == p5.executions && a5.assisting == p5.assisting && a5 == p5;
    SpawnThenAssistRunsSecond();
    assert Next(p4, AssistDone(0)) == Some(p5);
    assert Next(p3, AssistTake(0)) == Some(p4);
    assert Exec(p3, [AssistTake(0), AssistDone(0), Spawn1, AssistTake(0), AssistDone(0)])
      == Exec(p5, [Spawn1, AssistTake(0), AssistDone(0)]);
    assert Next(p2, AssistBegin) == Some(p3);
  }

  /** The second half of `AssistRunsOneThenSpawn`: the spawned worker takes
      id 0, and the `assist` call runs task 1 under id 0 as well. */
  lemma SpawnThenAssistRunsSecond()
    ensures Exec(Pool(false, 0, [1], [], 2, [0, 1], [0], [Execution(0, 0)], [Worker(0, AtLoopHead)]),
                 [Spawn1, AssistTake(0), AssistDone(0)])
      == Some(Pool(false, 0, [], [Worker(0, AtLoopHead)], 2, [0, 1], [0, 1], [Execution(0, 0), Execution(1, 0)],
                   [Worker(0, AtLoopHead)]))
  {
    var idle := Worker(0, AtLoopHead);
    var p5 := Pool(false, 0, [1], [], 2, [0, 1], [0], [Execution(0, 0)], [idle]);
    var p6 := p5.(workers := [idle]);
    var p7 := Pool(false, 1, [], [idle], 2, [0, 1], [0, 1], [Execution(0, 0)], [Worker(0, Running(1))]);
    var p8 := Pool(false, 0, [], [idle], 2, [0, 1], [0, 1], [Execution(0, 0), Execution(1, 0)], [idle]);
    var a6 := SpawnOne(p5);
    assert a6.workers == [idle] && a6 == p6;
    var a7 := AssistPop(p6, 0);
    assert a7.assisting == p7.assisting && a7 == p7;
    var a8 := AssistFinish(p7, 0);
    assert a8.executions == p8.executions && a8.assisting == p8.assisting && a8 == p8;
    assert Exec(p8, []) == Some(p8);
    assert Next(p7, AssistDone(0)) == Some(p8);
    assert Exec(p7, [AssistDone(0)]) == Some(p8);
    assert Next(p6, AssistTake(0)) == Some(p7);
    assert Exec(p6, [AssistTake(0), AssistDone(0)]) == Some(p8);
    assert Next(p5, Spawn1) == Some(p6);
  }

  /** Two `assist` calls in progress at once fix the same id, even with no
      `spawn`: here both run a task at the same time under id 0. */
  lemma TwoAssistsShareId()
    ensures var r := Exec(Empty, [Submit, Submit, AssistBegin, AssistBegin, AssistTake(0), AssistTake(1)]);
      && r.Some?
      && r.value.assisting == [Worker(0, Running(0)), Worker(0, Running(1))]
      && r.value.busy == 2 && r.value.queue == []
  {
    var p1 := Pool(false, 0, [0], [], 1, [0], [], [], []);
    var p2 := Pool(false, 0, [0, 1], [], 2, [0, 1], [], [], []);
    TwoSubmitted();
    TwoAssistsFromTwoQueued();
    assert Exec(p1, [Submit, AssistBegin, AssistBegin, AssistTake(0), AssistTake(1)])
      == Exec(p2, [AssistBegin, AssistBegin, AssistTake(0), AssistTake(1)]);
  }

  /** From two queued tasks and no thread, two `assist` calls enter and each
      takes one task. */
  lemma TwoAssistsFromTwoQueued()
    ensures Exec(Pool(false, 0, [0, 1], [], 2, [0, 1], [], [], []),
                 [AssistBegin, AssistBegin, AssistTake(0), AssistTake(1)])
      == Some(Pool(false, 2, [], [], 2, [0, 1], [0, 1], [], [Worker(0, Running(0)), Worker(0, Running(1))]))
  {
    var idle := Worker(0, AtLoopHead);
    var p2 := Pool(false, 0, [0, 1], [], 2, [0, 1], [], [], []);
    var p3 := p2.(assisting := [idle]);
    var p4 := p2.(assisting := [idle, idle]);
    var p5 := Pool(false, 1, [1], [], 2, [0, 1], [0], [], [Worker(0, Running(0)), idle]);
    var p6 := Pool(false, 2, [], [], 2, [0, 1], [0, 1], [], [Worker(0, Running(0)), Worker(0, Running(1))]);
    var a3 := AssistEnter(p2);
    assert a3.assisting == [idle] && a3 == p3;
    var a4 := AssistEnter(p3);
    assert a4.assisting == [idle, idle] && a4 == p4;
    var a5 := AssistPop(p4, 0);
    assert a5.assisting == p5.assisting && a5 == p5;
    var a6 := AssistPop(p5, 1);
    assert a6.assisting == p6.assisting && a6 == p6;
    assert Exec(p6, []) == Some(p6);
    assert Next(p5, AssistTake(1)) == Some(p6);
    assert Exec(p5, [AssistTake(1)]) == Some(p6);
    assert Next(p4, AssistTake(0)) == Some(p5);
    assert Exec(p4, [AssistTake(0), AssistTake(1)]) == Some(p6);
    assert Next(p3, AssistBegin) == Some(p4);
    assert Exec(p3, [AssistBegin, AssistTake(0), AssistTake(1)]) == Some(p6);
    assert Next(p2, AssistBegin) == Some(p3);
  }

  /** In a valid state at rest no thread, worker or inside `assist`, is
      running a task, and every task ever enqueued has run exactly once:
      `wait_completion` returns only when all earlier submissions are
      resolved. */
  lemma AtRestAllAcceptedCompleted(p: Pool)
    requires Valid(p) && AtRest(p)
    ensures forall i :: 0 <= i < |p.workers| ==> !p.workers[i].phase.Running?
    ensures forall s :: 0 <= s < |p.assisting| ==> !p.assisting[s].phase.Running?
    ensures multiset(Completed(p.executions)) == multiset(p.accepted)
    ensures forall t :: t in p.accepted ==> Resolved(p, t)
  {
    forall i | 0 <= i < |p.workers|
      ensures !p.workers[i].phase.Running?
    {
      if p.workers[i].phase.Running? {
        RunningTaskCounted(p.workers, i);
      }
    }
    forall s | 0 <= s < |p.assisting|
      ensures !p.assisting[s].phase.Running?
    {
      if p.assisting[s].phase.Running? {
        RunningTaskCounted(p.assisting, s);
      }
    }
    assert p.accepted == p.dequeued;
    forall t | t in p.accepted
      ensures Resolved(p, t)
    {
      assert t in multiset(p.dequeued);
    }
  }

  /** Tasks leave the queue in the order they were submitted: the dequeued
      tasks are the oldest submissions, and none is taken twice. */
  lemma FifoOrder(p: Pool)
    requires Valid(p)
    ensures p.dequeued == p.accepted[..|p.dequeued|]
    ensures forall i, j :: 0 <= i < j < |p.dequeued| ==> p.dequeued[i] < p.dequeued[j]
  {
    assert forall i :: 0 <= i < |p.dequeued| ==> p.dequeued[i] == p.accepted[i];
  }

  /** Only tasks that were enqueued ever finish. */
  lemma NeverEnqueuedNotResolved(p: Pool, t: TaskId)
    requires Valid(p) && t !in p.accepted
    ensures !Resolved(p, t)
  {
    assert t !in multiset(p.dequeued);
    assert t !in multiset(Completed(p.executions));
  }

  /** A submitted task that is not enqueued is never enqueued later: only
      fresh submissions join the queue. */
  lemma NextKeepsNotEnqueued(p: Pool, e: Event, t: TaskId)
    requires Next(p, e).Some? && t < p.submitted && t !in p.accepted
    ensures var q := Next(p, e).value; t < q.submitted && t !in q.accepted
  {
  }

  /** A task submitted while `join_` is set is never run, whatever happens
      afterwards: its future never resolves. */
  lemma {:induction false} DroppedNeverResolves(p: Pool, t: TaskId, es: seq<Event>)
    requires Valid(p) && t < p.submitted && t !in p.accepted
    ensures Exec(p, es).Some? ==> !Resolved(Exec(p, es).value, t)
    decreases |es|
  {
    if es == [] {
      NeverEnqueuedNotResolved(p, t);
    } else if Next(p, es[0]).Some? {
      var q := Next(p, es[0]).value;
      NextKeepsValid(p, es[0]);
      NextKeepsNotEnqueued(p, es[0], t);
      DroppedNeverResolves(q, t, es[1..]);
    }
  }

  /** `arun` while `join_` is set: the returned task is dropped. */
  lemma ArunWhileJoiningIsDropped(p: Pool, es: seq<Event>)
    requires Valid(p) && p.joining
    ensures var (q, t) := Arun(p);
      Exec(q, es).Some? ==> !Resolved(Exec(q, es).value, t)
  {
    var (q, t) := Arun(p);
    ArunKeepsValid(p);
    DroppedNeverResolves(q, t, es);
  }

  // ---------------------------------------------------------------------
  // The operations that run many actions.

  /** `spawn(n)`: n threads with ids `worker_count() … worker_count() + n - 1`. */
  method Spawn(p: Pool, n: nat) returns (q: Pool)
    requires Valid(p)
    ensures Valid(q)
    ensures WorkerCount(q) == WorkerCount(p) + n
    ensures q.workers[..|p.workers|] == p.workers
    ensures forall i :: |p.workers| <= i < |q.workers| ==> q.workers[i] == Worker(i, AtLoopHead)
    ensures forall i, j :: 0 <= i < j < |q.workers| ==> q.workers[i].id != q.workers[j].id
    ensures q == p.(workers := q.workers)
  {
    q := p;
    var i := 0;
    while i < n
      invariant i <= n && Valid(q)
      invariant |q.workers| == |p.workers| + i
      invariant q.workers[..|p.workers|] == p.workers
      invariant forall k :: |p.workers| <= k < |q.workers| ==> q.workers[k] == Worker(k, AtLoopHead)
      invariant q == p.(workers := q.workers)
    {
      SpawnOneExtends(p, q);
      q := SpawnOne(q);
      i := i + 1;
    }
  }

  /** One more round of `spawn` keeps the workers that were there before it
      began and appends a worker whose id is its position. */
  lemma SpawnOneExtends(p: Pool, q: Pool)
    requires Valid(q) && |p.workers| <= |q.workers| && q.workers[..|p.workers|] == p.workers
    requires forall k :: |p.workers| <= k < |q.workers| ==> q.workers[k] == Worker(k, AtLoopHead)
    ensures var r := SpawnOne(q);
      && Valid(r)
      && r.workers[..|p.workers|] == p.workers
      && forall k :: |p.workers| <= k < |r.workers| ==> r.workers[k] == Worker(k, AtLoopHead)
  {
    SpawnOneKeepsValid(q);
    var r := SpawnOne(q);
    assert r.workers[..|p.workers|] == q.workers[..|p.workers|];
  }

  /** The constructor `ThreadPool(nt)`: an empty pool, then `spawn(nt)`.
      Nothing has been submitted or run, and `busy_` is 0. */
  method Create(nt: nat) returns (q: Pool)
    ensures Valid(q) && WorkerCount(q) == nt
    ensures forall i :: 0 <= i < nt ==> q.workers[i] == Worker(i, AtLoopHead)
    ensures q == Empty.(workers := q.workers)
  {
    EmptyIsValid();
    q := Spawn(Empty, nt);
  }

  /** The executions `assist` produces for the tasks `ts` under thread id `id`. */
  function RunAll(ts: seq<TaskId>, id: nat): (es: seq<Execution>)
    ensures |es| == |ts|
    ensures forall i :: 0 <= i < |ts| ==> es[i] == Execution(ts[i], id)
  {
    seq(|ts|, i requires 0 <= i < |ts| => Execution(ts[i], id))
  }

  /** The loop of the `assist` call `s`, with no other thread acting
      meanwhile: it runs every queued task, front first, once each, under the
      id the call fixed, until the queue is empty. */
  method AssistRounds(p: Pool, s: nat) returns (q: Pool)
    requires Valid(p) && s < |p.assisting| && p.assisting[s].phase == AtLoopHead
    ensures Valid(q)
    ensures q.queue == [] && q.busy == p.busy
    ensures q.dequeued == p.dequeued + p.queue
    ensures q.executions == p.executions + RunAll(p.queue, p.assisting[s].id)
    ensures q == p.(queue := q.queue, dequeued := q.dequeued, executions := q.executions)
  {
    q := p;
    var k := 0;
    while q.queue != []
      invariant k <= |p.queue| && Valid(q)
      invariant q.queue == p.queue[k..]
      invariant q.dequeued == p.dequeued + p.queue[..k]
      invariant q.executions == p.executions + RunAll(p.queue[..k], p.assisting[s].id)
      invariant q == p.(queue := q.queue, dequeued := q.dequeued, executions := q.executions)
      decreases |q.queue|
    {
      AssistPopThenFinish(q, s);
      assert p.queue[..k + 1] == p.queue[..k] + [q.queue[0]];
      q := AssistFinish(AssistPop(q, s), s);
      k := k + 1;
    }
    assert p.queue[..k] == p.queue;
  }

  /** `assist`, with no other thread acting meanwhile: the calling thread
      fixes its id, runs every queued task, front first, once each, under that
      id, which no worker has, and returns with the queue empty and `busy_`
      as it was. */
  method Assist(p: Pool) returns (q: Pool)
    requires Valid(p)
    ensures Valid(q)
    ensures q.queue == [] && q.busy == p.busy
    ensures q.dequeued == p.dequeued + p.queue
    ensures q.executions == p.executions + RunAll(p.queue, WorkerCount(p))
    ensures q == p.(queue := q.queue, dequeued := q.dequeued, executions := q.executions)
  {
    var s := |p.assisting|;
    AssistEnterKeepsValid(p);
    q := AssistEnter(p);
    q := AssistRounds(q, s);
    assert q.assisting == p.assisting + [Worker(WorkerCount(p), AtLoopHead)];
    assert q.assisting[..s] == p.assisting;
    assert q.assisting[s + 1..] == [];
    AssistLeaveKeepsValid(q, s);
    q := AssistLeave(q, s);
  }

  /** A rank that each action of a worker during `join` lowers. */
  function PhaseRank(ph: Phase): nat
  {
    match ph
    case Exited => 0
    case AtLoopHead => 1
    case Running(_) => 2
    case Waiting => 3
  }

  function CountWaiting(ws: seq<Worker>): nat
  {
    if ws == [] then 0
    else CountWaiting(ws[..|ws| - 1]) + (if ws[|ws| - 1].phase == Waiting then 1 else 0)
  }

  /** While `join_` is set, drive worker `w` until its thread returns: it
      finishes its task if it has one, and a waiting worker takes at most one
      more task from the front of the queue. The other workers do not move. */
  method RunUntilExit(p: Pool, w: nat) returns (q: Pool, taken: nat)
    requires Valid(p) && p.joining && w < |p.workers|
    ensures Valid(q) && q.joining && q.accepted == p.accepted && q.assisting == p.assisting
    ensures |q.workers| == |p.workers| && q.workers[w].phase == Exited
    ensures forall i :: 0 <= i < |p.workers| && i != w ==> q.workers[i] == p.workers[i]
    ensures taken <= |p.queue| && q.queue == p.queue[taken..]
    ensures taken <= (if p.workers[w].phase == Waiting then 1 else 0)
  {
    q := p;
    taken := 0;
    while q.workers[w].phase != Exited
      invariant Valid(q) && q.joining && q.accepted == p.accepted && q.assisting == p.assisting
      invariant |q.workers| == |p.workers|
      invariant forall i :: 0 <= i < |p.workers| && i != w ==> q.workers[i] == p.workers[i]
      invariant taken <= |p.queue| && q.queue == p.queue[taken..]
      invariant taken <= (if p.workers[w].phase == Waiting then 1 else 0)
      invariant taken == 1 || p.workers[w].phase != Waiting ==> q.workers[w].phase != Waiting
      decreases PhaseRank(q.workers[w].phase)
    {
      match q.workers[w].phase
      case AtLoopHead =>
        LoopHeadKeepsValid(q, w);
        q := LoopHead(q, w);
      case Waiting =>
        WakeKeepsValid(q, w);
        if q.queue != [] {
          taken := taken + 1;
        }
        q := Wake(q, w);
      case Running(t) =>
        RunningWorkerIsBusy(q, w);
        FinishKeepsValid(q, w);
        q := Finish(q, w);
    }
  }

  /** One turn of the waiting loop of `join`: worker `w` runs until its
      thread returns; workers before it have already returned. */
  method JoinOne(p: Pool, q0: Pool, w: nat, drained0: nat) returns (q: Pool, drained: nat)
    requires w < |p.workers|
    requires Valid(q0) && q0.joining && |q0.workers| == |p.workers| && q0.accepted == p.accepted
    requires q0.assisting == p.assisting
    requires forall i :: 0 <= i < w ==> q0.workers[i].phase == Exited
    requires forall i :: w <= i < |p.workers| ==> q0.workers[i] == p.workers[i]
    requires drained0 <= |p.queue| && q0.queue == p.queue[drained0..]
    requires drained0 <= CountWaiting(p.workers[..w])
    ensures Valid(q) && q.joining && |q.workers| == |p.workers| && q.accepted == p.accepted
    ensures q.assisting == p.assisting
    ensures forall i :: 0 <= i < w + 1 ==> q.workers[i].phase == Exited
    ensures forall i :: w + 1 <= i < |p.workers| ==> q.workers[i] == p.workers[i]
    ensures drained <= |p.queue| && q.queue == p.queue[drained..]
    ensures drained <= CountWaiting(p.workers[..w + 1])
  {
    var taken;
    q, taken := RunUntilExit(q0, w);
    drained := drained0 + taken;
    ExitedOneMore(p.workers, q0.workers, q.workers, w);
    DrainedOneMore(p, w, drained0, taken);
  }

  /** After worker `w` exits, the workers before it and `w` itself have
      exited, and the later ones are untouched. */
  lemma ExitedOneMore(ws: seq<Worker>, ws0: seq<Worker>, ws1: seq<Worker>, w: nat)
    requires w < |ws| == |ws0| == |ws1|
    requires forall i :: 0 <= i < w ==> ws0[i].phase == Exited
    requires forall i :: w <= i < |ws| ==> ws0[i] == ws[i]
    requires ws1[w].phase == Exited
    requires forall i :: 0 <= i < |ws| && i != w ==> ws1[i] == ws0[i]
    ensures forall i :: 0 <= i < w + 1 ==> ws1[i].phase == Exited
    ensures forall i :: w + 1 <= i < |ws| ==> ws1[i] == ws[i]
  {
  }

  /** The tasks drained so far, plus the at most one that worker `w` took
      when it was waiting, stay within the count of waiting workers. */
  lemma DrainedOneMore(p: Pool, w: nat, drained0: nat, taken: nat)
    requires w < |p.workers|
    requires drained0 <= CountWaiting(p.workers[..w])
    requires taken <= (if p.workers[w].phase == Waiting then 1 else 0)
    requires drained0 + taken <= |p.queue|
    ensures drained0 + taken <= CountWaiting(p.workers[..w + 1])
    ensures p.queue[drained0..][taken..] == p.queue[drained0 + taken..]
  {
    assert p.workers[..w + 1][..w] == p.workers[..w];
    assert p.workers[..w + 1][w] == p.workers[w];
  }

  /** `join`: set `join_`, wait for every worker thread to return, clear the
      workers and reset `join_`. Afterwards there is no worker, and `busy_`
      counts only the tasks that threads inside `assist` are running (none
      when no `assist` call is in progress); the queue has lost at most one
      task per worker that was waiting when `join` began: tasks still queued
      stay queued. */
  method Join(p: Pool) returns (q: Pool, drained: nat)
    requires Valid(p)
    ensures Valid(q)
    ensures WorkerCount(q) == 0 && !q.joining
    ensures q.assisting == p.assisting && q.busy == |RunningTasks(p.assisting)|
    ensures drained <= |p.queue| && drained <= CountWaiting(p.workers) && q.queue == p.queue[drained..]
    ensures q.accepted == p.accepted
  {
    q := JoinBegin(p);
    var w := 0;
    drained := 0;
    while w < |p.workers|
      invariant w <= |p.workers|
      invariant Valid(q) && q.joining && |q.workers| == |p.workers| && q.accepted == p.accepted
      invariant q.assisting == p.assisting
      invariant forall i :: 0 <= i < w ==> q.workers[i].phase == Exited
      invariant forall i :: w <= i < |p.workers| ==> q.workers[i] == p.workers[i]
      invariant drained <= |p.queue| && q.queue == p.queue[drained..]
      invariant drained <= CountWaiting(p.workers[..w])
    {
      q, drained := JoinOne(p, q, w, drained);
      w := w + 1;
    }
    assert p.workers[..w] == p.workers;
    JoinEndKeepsValid(q);
    AllExitedNoneRunning(q.workers);
    q := JoinEnd(q);
    assert RunningTasks([]) == multiset{};
  }
}

=== FILE: wrappers.dfy ===
/** The optional value used where an operation of the model may not apply. */
module Wrappers {

  datatype Option<+T> = None | Some(value: T)
}
